=== FILE: README.md ===
# SQLiteDataModel schema engine in Dafny

SQLiteDataModel keeps a SQLite database in step with a versioned Core Data model. It does
three things:

- `create(version:)` writes one `CREATE TABLE` per entity of the model, then creates the
  `schema_migrations` table and records the model's version in it.
- `currentVersion()` reads back the version recorded last.
- `migrate(to:)` loads the model of the current version and the target model, and asks Core
  Data to infer the entity mappings between them. Each mapping becomes a create, drop or
  rename of a table. The target version is recorded last.

This project models that engine as pure functions over an abstract database and proves what
each operation promises.

- `Outcomes`: `Option`, `Result` and the engine's `Error` cases. A force-unwrap of a missing
  value becomes the error `NilUnwrapped`, where the program would trap.
- `Numerals`: Swift's 64-bit `Int`, how string interpolation writes it, and how `Int(_:)` reads
  it back.
- `Schema`: entities, attributes (the fifteen Core Data attribute types) and relationships.
- `Sql`: the statements the engine sends and their exact text. It also has a reader, which
  shows that distinct statements are sent as distinct text.
- `Ddl`: `createTable(for:name:)` turns one entity into a `CREATE TABLE` statement with one
  column clause per attribute.
- `Database`: the database the engine sees.
  - `Db` holds the statements SQLite accepted, the tables that exist, and the rows of
    `schema_migrations`.
  - `Driver` stands for `sqlite3_exec` as an arbitrary function from database and statement
    text to a result code and message, so locks and I/O errors are all covered.
  - `execute(_:)` is modelled directly. A loop that throws at its first failing step is a
    `Plan`, built by `Sequence`.
- `Versions`: `currentVersion()`, the file names of versioned models, and `loadModel(_:)`.
  `NSManagedObjectModel(contentsOf:)` is a map from URL to model.
- `Creation`: `create(version:)`.
- `Migration`: `migrate(to:)`. `NSMappingModel.inferredMappingModel` is a function parameter.

In two places the code departs from what it evidently intends (see "## Findings"). Every
member that these departures affect takes an `Outcomes.Reading`. `AsWritten` follows the
code as it is. `Corrected` is the code with both departures fixed. Agreement lemmas say
where the two readings coincide and where they differ.

Three facts about the code are worth stating up front:

- `migrate` has no check for a database that is already at the target version. It always
  appends a version row (`Migration.CopiesOnlyRecordVersion`).
- `createTable` skips every property that is not an attribute. The relationship case is
  commented out, so no relationship columns, foreign keys or join tables are made.
- With no `schema_migrations` table, the version query itself fails. `currentVersion()`
  then throws SQLite's `no such table` error (`Versions.NoVersionTable`), not
  `unknownSQLiteSchemaVersion`.

## Model

| member | source | states |
|---|---|---|
| Numerals.ParseInt | SQLiteDataModel/SQLiteDataModel.swift:95 | `Int(_:)` accepts only an optional sign followed by digits, and only values that fit in 64 bits; the sign of the text is the sign of the value |
| Numerals.ParseIntAccepts | SQLiteDataModel/SQLiteDataModel.swift:95 | conversely, `Int(_:)` accepts every optional `+` or `-` followed by one or more digits, leading zeros included, with the signed value of the digits, and rejects it exactly when that value does not fit in 64 bits |
| Numerals.ParseIntPlus | SQLiteDataModel/SQLiteDataModel.swift:95 | a non-negative version identifier written with an explicit `+` reads as its value |
| Numerals.IntToString | SQLiteDataModel/SQLiteDataModel.swift:233-236 | the interpolated text `"\(n)"` of a version is never empty, starts with `-` exactly when the version is negative, and is digits otherwise |
| Numerals.ParseIntToString | SQLiteDataModel/SQLiteDataModel.swift:233-236 | a version written into `INSERT INTO schema_migrations` reads back as the same `Int` |
| Numerals.IntToStringInjective | SQLiteDataModel/SQLiteDataModel.swift:233-236 | distinct versions are written as distinct text |
| Sql.ParseRender | SQLiteDataModel/SQLiteDataModel.swift:206-235 | every statement text the engine builds (create, drop, rename, version table, version row) can be read back as the statement it came from, given table names without a double quote |
| Sql.RenderInjective | SQLiteDataModel/SQLiteDataModel.swift:206-235 | two different statements are never sent as the same text |
| Ddl.AffinityKeyword | SQLiteDataModel/SQLiteDataModel.swift:174-195 | which attribute types get which type keyword: exactly the listed ones get INTEGER, TEXT, BLOB, REAL or NUMERIC, and transformable and undefined get none |
| Ddl.KeywordGivesIntendedAffinity | SQLiteDataModel/SQLiteDataModel.swift:174-195 | by SQLite's affinity rules, each emitted keyword gives the column the storage its Core Data type is meant to have; a missing keyword gives BLOB |
| Ddl.ParseColumnClause | SQLiteDataModel/SQLiteDataModel.swift:169-200 | for an attribute whose name has no space, its column clause can be read back: name, type keyword, `NOT NULL` exactly when the attribute is not optional, and the default value when there is one |
| Ddl.ColumnsJoin | SQLiteDataModel/SQLiteDataModel.swift:165-205 | when every attribute has a non-empty name, as Core Data requires, the column list is the attributes' clauses in property order, separated by `, `, with no leading or trailing separator |
| Ddl.ColumnsSkipRelationships | SQLiteDataModel/SQLiteDataModel.swift:166-204 | properties that are not attributes add nothing to the column list |
| Ddl.CreateTable | SQLiteDataModel/SQLiteDataModel.swift:157-208 | corrected `createTable`: it refuses with `zeroColumnTable` exactly when the entity has no attribute; otherwise it creates the table named `name` (or the entity's name). When every attribute has a non-empty name, as Core Data requires, the columns are the attributes' clauses joined by `, ` and the column list is not empty |
| Ddl.CreateTableAsWritten | SQLiteDataModel/SQLiteDataModel.swift:157-208 | `createTable` as written refuses only an entity with no properties, so an entity with relationships but no attributes yields an empty column list |
| Ddl.CreateTableAgreement | SQLiteDataModel/SQLiteDataModel.swift:161-163 | the two versions agree exactly on entities that have no properties or have an attribute |
| Ddl.RelationshipOnlyEntity | SQLiteDataModel/SQLiteDataModel.swift:161-163 | for an entity whose only property is a relationship, the code as written emits `CREATE TABLE "Trip"()`, which the corrected version refuses |
| Ddl.CreateTableSkipsRelationships | SQLiteDataModel/SQLiteDataModel.swift:166-204 | corrected `createTable`: the statement for an entity is the statement for its attributes alone. As written, the column list is still that of the attributes alone, but the statement differs exactly for an entity with relationships and no attribute, which the code accepts and its attributes alone do not |
| Ddl.TableFor | SQLiteDataModel/SQLiteDataModel.swift:157-208 | `createTable` under either reading: it refuses with `zeroColumnTable` exactly as that reading's guard says (as written, no properties; corrected, no attribute). Otherwise both readings make the same statement, and as written an entity without attributes gets an empty column list |
| Schema.EntityNamed | SQLiteDataModel/SQLiteDataModel.swift:279 | a looked-up entity is in the model and has the name asked for; no entity has that name when the lookup finds nothing |
| Database.Execute | SQLiteDataModel/SQLiteDataModel.swift:107-118 | `execute` succeeds exactly when SQLite returns `SQLITE_OK`, and then the statement takes effect; otherwise the database is unchanged and `sqLiteError` carries SQLite's code and message |
| Database.ExecuteAll | SQLiteDataModel/SQLiteDataModel.swift:107-118 | a run of `try execute` calls performs a prefix of the statements in order, and all of them exactly when it succeeds |
| Database.Sequence | SQLiteDataModel/SQLiteDataModel.swift:273-301 | a loop of throwing steps runs the statements of the steps before the first failure and throws that failure, or runs all of them and then what follows the loop |
| Database.ExecuteAllAppend | SQLiteDataModel/SQLiteDataModel.swift:243-250 | running two lists one after the other is running their concatenation |
| Database.ExecuteAllAccepted | SQLiteDataModel/SQLiteDataModel.swift:107-118 | when SQLite accepts everything, every statement runs and the log grows by exactly them |
| Database.RunSequenceStep | SQLiteDataModel/SQLiteDataModel.swift:273-300 | one iteration of such a loop: throw the step's error, or execute its statement and continue with the remaining steps |
| Database.SequencePrefix | SQLiteDataModel/SQLiteDataModel.swift:243-246 | while the first iterations of such a loop succeed, their statements are the first statements run |
| Database.RunRefusedAt | SQLiteDataModel/SQLiteDataModel.swift:107-118 | a run in which SQLite refuses one statement after accepting those before it throws `sqLiteError` with the code and message SQLite returned for that statement, and leaves the database as those before it left it |
| Versions.CurrentVersionAsWritten | SQLiteDataModel/SQLiteDataModel.swift:121-154 | `currentVersion` as written: on an existing but empty version table the request times out with `sqLiteRequestTimeout`; otherwise the last row is read as an `Int` |
| Versions.CurrentVersion | SQLiteDataModel/SQLiteDataModel.swift:254-263 | corrected `currentVersion`: it succeeds exactly when the version table exists and its last row reads as an `Int`, and then returns what `Int(_:)` reads from that row. A missing table gives SQLite's error; any other failure is `unknownSQLiteSchemaVersion` |
| Versions.LastVersion | SQLiteDataModel/SQLiteDataModel.swift:256-258 | the last row by rowid is read as an `Int`. The result is the value `Int(_:)` reads from that row, and `unknownSQLiteSchemaVersion` exactly when the row is not an `Int` |
| Versions.CurrentVersionAgreement | SQLiteDataModel/SQLiteDataModel.swift:130-153 | the version as written and as corrected differ exactly on an existing, empty version table |
| Versions.ReadVersion | SQLiteDataModel/SQLiteDataModel.swift:254-263 | `currentVersion` under either reading succeeds exactly when the version table exists and its last row reads as an `Int`, and returns that value. On an existing, empty table it times out as written and reports an unknown version when corrected |
| Versions.RecordedVersionIsCurrent | SQLiteDataModel/SQLiteDataModel.swift:233-263 | after a version row is inserted, `currentVersion` returns that version under either reading, whatever rows came before |
| Versions.VersionedName | SQLiteDataModel/SQLiteDataModel.swift:90 | version 1 is the bare model name; any other version is the model name, a space, and text that reads back as that version number |
| Versions.VersionedNameInjective | SQLiteDataModel/SQLiteDataModel.swift:90 | distinct versions have distinct file names |
| Versions.ModelFileURL | SQLiteDataModel/SQLiteDataModel.swift:90 | the model bundle itself is opened exactly when no version is asked for |
| Versions.ModelFileURLInjective | SQLiteDataModel/SQLiteDataModel.swift:90 | distinct version requests open distinct files |
| Versions.LoadModel | SQLiteDataModel/SQLiteDataModel.swift:88-104 | the error for each case: a file that does not load gives `unableToLoadCoreDataModel`; a missing or non-numeric version identifier gives `invalidModelVersion(nil, expected:)`; a declared version other than the one asked for gives `invalidModelVersion(found, expected:)`. Otherwise the model and its declared version are returned, in `Int` range and equal to the request |
| Creation.Step | SQLiteDataModel/SQLiteDataModel.swift:243-246 | each iteration of `create` yields the entity's `CREATE TABLE`, named after it and listing its attributes' columns. It yields `zeroColumnTable` with the entity's name exactly when `createTable` refuses the entity: as written, an entity without properties; corrected, one without attributes. As written, an entity with only relationships gets an empty column list |
| Creation.CreationOrder | SQLiteDataModel/SQLiteDataModel.swift:239-251 | when `createTable` refuses no entity, `create` issues one `CREATE TABLE` per entity in model order, then the version table, then the version row |
| Creation.CreationStopsAtRefusedEntity | SQLiteDataModel/SQLiteDataModel.swift:243-246 | `create` stops at the first entity `createTable` refuses, with `zeroColumnTable` naming it. As written that is the first entity without properties; corrected, the first without attributes. Only the tables before it are created, and no version table |
| Creation.CreationAgreement | SQLiteDataModel/SQLiteDataModel.swift:161-163 | on a model whose every entity has no properties or has an attribute, `create` makes the same plan as written and corrected |
| Creation.CreationPrefix | SQLiteDataModel/SQLiteDataModel.swift:243-246 | while `createTable` refuses none of the first entities, the creation plan starts with their `CREATE TABLE` statements |
| Creation.EmptyTableSent | SQLiteDataModel/SQLiteDataModel.swift:161-163 | where the readings differ: at the first entity with properties but no attributes, the code as written sends `CREATE TABLE "<name>"()` right after the tables before it |
| Creation.EmptyTableRefused | SQLiteDataModel/SQLiteDataModel.swift:161-163 | when SQLite rejects that empty column list, the code as written leaves the same database as the corrected code, but throws `sqLiteError` with the code and message SQLite returned for `CREATE TABLE "<name>"()` instead of `zeroColumnTable` |
| Creation.TailRecordsVersion | SQLiteDataModel/SQLiteDataModel.swift:248-250 | creating the version table and inserting the row leaves exactly that row, and its version is current under either reading |
| Creation.CreatedVersionIsCurrent | SQLiteDataModel/SQLiteDataModel.swift:239-251 | under either reading, a successful `create` leaves exactly one version row, and that version is current |
| Creation.CreationAccepted | SQLiteDataModel/SQLiteDataModel.swift:239-251 | when SQLite accepts everything, `create` succeeds exactly when `createTable` refuses no entity. As written, that means every entity has a property. It runs exactly the planned statements |
| Creation.CreateTables | SQLiteDataModel/SQLiteDataModel.swift:243-250 | under either reading, the loop of `create` (with that reading's `createTable`) and the two statements after it carry out the creation plan |
| Creation.Create | SQLiteDataModel/SQLiteDataModel.swift:239-251 | under either reading, `create` runs nothing when the model fails to load, and otherwise carries out that reading's creation plan. On success the model's version is the only row and is current; when a version was asked for, that version is current |
| Creation.InterruptedCreation | SQLiteDataModel/SQLiteDataModel.swift:248-250 | for every database, SQLite behaviour and model: if SQLite accepts the tables and the version table and then refuses the version row, the version table is left empty. `currentVersion` as written then times out instead of reporting an unknown version |
| Migration.Names | SQLiteDataModel/SQLiteDataModel.swift:274-275 | the table names a mapping mentions are its source and destination names, when present |
| Migration.Dispatch | SQLiteDataModel/SQLiteDataModel.swift:274-298 | the statement one entity mapping becomes. Custom and undefined mappings, and only they, give `unsupportedMigrationType`. A copy does nothing. An add creates the destination entity's table from the target model. It fails exactly when `createTable` refuses that entity under the reading (as written, no properties), and traps when the name or the entity is missing. A remove fails exactly when the source name is missing. A transform fails exactly when the names differ and one is missing. The statement is always a create, drop or rename |
| Migration.DispatchMeetsIntent | SQLiteDataModel/SQLiteDataModel.swift:277-287 | under either reading, each statement does what its mapping means. An added table exists, a removed one does not, a renamed table exists only under its new name, and a copy or unrenamed transform changes nothing. No other table changes, and the version rows stay as they were |
| Migration.UnsupportedMappingStops | SQLiteDataModel/SQLiteDataModel.swift:297-298 | a custom or undefined mapping anywhere in the mapping model makes `migrate` throw, and no version row is added. When every mapping before it goes through, the error is `unsupportedMigrationType`, after the statements of those mappings only |
| Migration.MigrationRecordsVersionLast | SQLiteDataModel/SQLiteDataModel.swift:273-301 | the migration plan has no error exactly when every mapping goes through; it then ends with the single version row, every earlier statement being a create, drop or rename; a plan that stops on an error holds no version row |
| Migration.CopiesOnlyRecordVersion | SQLiteDataModel/SQLiteDataModel.swift:282-283 | mappings that only copy entities, as when migrating to the current version, change no table and still append a version row |
| Migration.Mentioned | SQLiteDataModel/SQLiteDataModel.swift:273-275 | the mentioned names are exactly the source and destination names of the mappings, and nothing else |
| Migration.MigrationFrame | SQLiteDataModel/SQLiteDataModel.swift:273-301 | a successful migration appends exactly its version row and leaves every table no mapping mentions as it was |
| Migration.MigrationVersions | SQLiteDataModel/SQLiteDataModel.swift:273-301 | a migration that fails, on a mapping or on a statement SQLite refuses, leaves the version rows as they were; one that succeeds appends exactly its version |
| Migration.MigrationAccepted | SQLiteDataModel/SQLiteDataModel.swift:273-301 | under either reading, when SQLite accepts everything, a migration succeeds exactly when every mapping goes through that reading's dispatch |
| Migration.MigrationAgreement | SQLiteDataModel/SQLiteDataModel.swift:279 | when no entity of the target model has properties but no attributes, the migration plan is the same as written and corrected |
| Migration.ApplyMappings | SQLiteDataModel/SQLiteDataModel.swift:273-301 | under either reading, the loop of `migrate` (adds through that reading's `createTable`) and the version row after it carry out the migration plan |
| Migration.Preliminaries | SQLiteDataModel/SQLiteDataModel.swift:268-271 | the steps before the loop. The target model loads, the current version is read under the reading, its model loads, and the mapping is inferred from the current model to the target. Each of these errors is thrown as it arises: the target's load error, the version read's error, the current model's load error, then `MappingInferenceFailed` when Core Data infers no mapping. As written, an existing, empty version table makes the step time out with `sqLiteRequestTimeout` |
| Migration.PreliminariesAgreement | SQLiteDataModel/SQLiteDataModel.swift:254-271 | the two readings give different preliminaries exactly when the target model loads and the version table exists but is empty |
| Migration.Migrate | SQLiteDataModel/SQLiteDataModel.swift:266-302 | under either reading, `migrate` runs nothing unless the preliminaries succeed, and then carries out the migration plan. A failed migration leaves the recorded versions as they were. A successful one appends the target version, requested or not, and that version is then current under either reading as long as the version table exists |

## Left out

- The SQLite C API: opening and closing the connection, `PRAGMA journal_mode = WAL` in the
  initialiser, and `deinit`. SQLite's verdict on each statement comes from the `Driver`
  parameter. The model of the database records only the tables and the version rows, not
  columns or user data.
- Finding the compiled model in a bundle (`noDataModelResource`), and deriving `modelName` from
  the model URL. The model URL and name are parameters.
- `request(_:)`: the row callback, the dispatch group and the five-second wait. They are
  modelled only through their outcome for `currentVersion`. The only failure of the version
  query modelled is a missing `schema_migrations` table. Other SQLite failures of that query,
  and the `timestamp` column, are not modelled.
- `NSMappingModel.inferredMappingModel`: it is a function parameter. The error it throws is
  `MappingInferenceFailed`, and which mappings it infers is not modelled.
- `alterTable(with:)` and `updateSchema(with:)`: both are empty and never called. The commented-out
  handling of property mappings for transforms is not modelled either.
- Relationship columns, foreign keys, join tables and unique constraints: the code does not
  emit them.
- `errorDescription` and the `print` calls: they are text for people and do not change the
  schema.
- Escaping of names and default values: the code embeds them as they are. A default value is
  modelled as the text its interpolation produces.
- Traps: a force-unwrap of a missing entity name or mapping name ends the program. It is
  modelled as the error `NilUnwrapped`, which stops the operation like a thrown error.
- Entity names: Core Data's `entity.name` is optional, and `createTable` force-unwraps it. Every
  modelled entity has a name, so that trap is not modelled.
- Version identifiers: `loadModel` reads the first of the model's set of version
  identifiers, and a set has no defined order. A model here carries at most one identifier.
- Migration.Migrate: the target version is proved current only while `schema_migrations` still
  exists. A mapping whose entity is itself named `schema_migrations` could drop or rename that
  table.
- Migration.MigrationFrame: table names are compared as exact strings. SQLite matches table
  names without regard to ASCII case, so "every other table is unchanged" is proved only for
  names that differ from every mentioned name by more than case. Case-insensitive name
  matching is not modelled.
- Migration.DispatchMeetsIntent: the same holds for its "no other table changes" part.
- Sql.ParseRender: the round trip is stated for table names without a double quote, because
  the code does not escape quotes.

## Findings

| source | as written | input that shows it | evidently intended | confidence | as-written member | corrected member |
|---|---|---|---|---|---|---|
| SQLiteDataModel/SQLiteDataModel.swift:130-153 | the dispatch group is left only in the row callback, which SQLite never calls when the query returns no rows | `currentVersion()` on a database whose `schema_migrations` table exists but is empty, for example after `create` failed on its version row | throw `unknownSQLiteSchemaVersion` at once, as the `guard` in `currentVersion()` is written to do | not executed | Versions.CurrentVersionAsWritten, Creation.InterruptedCreation, Migration.PreliminariesAgreement | Versions.CurrentVersion |
| SQLiteDataModel/SQLiteDataModel.swift:161-163 | the guard refuses only an entity with no properties, but the loop skips every property that is not an attribute | an entity `Trip` whose only property is the relationship `legs` gives `CREATE TABLE "Trip"()`, which SQLite rejects as a syntax error | refuse with `zeroColumnTable`, whose message says the entity must contain attributes | not executed | Ddl.CreateTableAsWritten, Ddl.RelationshipOnlyEntity, Creation.EmptyTableRefused | Ddl.CreateTable |

`create` and `migrate` are modelled under both readings. `Reading.AsWritten` uses the
as-written members above, and `Reading.Corrected` uses the corrected ones. Every property
proved for the operations holds under both readings, unless its row names one reading.

=== FILE: creation.dfy ===
/** `create(version:)`: a table for every entity of the model in model order, then the
    `schema_migrations` table, then the row recording the model's version. Every member takes
    the `Reading` of `createTable`'s guard it describes. */
module Creation {
  import opened Outcomes
  import opened Numerals
  import opened Schema
  import opened Sql
  import opened Database
  import opened Versions
  import Ddl

  /** The step of the loop for one entity: its `CREATE TABLE`, or the error that refuses it.
      As written only an entity without properties is refused, so an entity whose properties
      are all relationships yields a table with an empty column list. */
  function Step(reading: Reading, e: Entity): (r: Result<Option<Statement>>)
    ensures r.Ok? <==> !Ddl.Refuses(reading, e.properties)
    ensures reading.AsWritten? ==> (r.Err? <==> |e.properties| == 0)
    ensures reading.Corrected? ==> (r.Err? <==> !HasAttribute(e.properties))
    ensures r.Err? ==> r.error == ZeroColumnTable(e.name)
    ensures r.Ok? ==> r.value == Some(Sql.CreateTable(e.name, Ddl.Columns(e.properties)))
    ensures r.Ok? && !HasAttribute(e.properties) ==> r.value.value.columns == ""
  {
    match Ddl.TableFor(reading, e, None)
    case Ok(s) => Ok(Some(s))
    case Err(err) => Err(err)
  }

  function CreationSteps(reading: Reading, entities: seq<Entity>): (steps: seq<Result<Option<Statement>>>)
    ensures |steps| == |entities|
    ensures forall i :: 0 <= i < |entities| ==> steps[i] == Step(reading, entities[i])
  {
    seq(|entities|, i requires 0 <= i < |entities| => Step(reading, entities[i]))
  }

  function CreationTail(version: int): seq<Statement> {
    [CreateVersionTable, InsertVersion(version)]
  }

  function CreationPlan(reading: Reading, model: Model, version: int): Plan {
    Sequence(CreationSteps(reading, model.entities), CreationTail(version))
  }

  /** The `CREATE TABLE` statements of `entities`, in order, each named after its entity and
      listing its attributes' columns. */
  function CreateStatements(entities: seq<Entity>): seq<Statement> {
    seq(|entities|, i requires 0 <= i < |entities| => Sql.CreateTable(entities[i].name, Ddl.Columns(entities[i].properties)))
  }

  /** None of `entities` is refused under `reading`. */
  predicate AllAdmitted(reading: Reading, entities: seq<Entity>) {
    forall i :: 0 <= i < |entities| ==> !Ddl.Refuses(reading, entities[i].properties)
  }

  lemma {:induction false} FlattenCreation(reading: Reading, entities: seq<Entity>)
    requires AllAdmitted(reading, entities)
    ensures Flatten(CreationSteps(reading, entities)) == CreateStatements(entities)
    decreases |entities|
  {
    if |entities| > 0 {
      var steps := CreationSteps(reading, entities);
      var creates := CreateStatements(entities);
      assert steps[0] == Ok(Some(creates[0]));
      assert steps[1..] == CreationSteps(reading, entities[1..]);
      assert forall i :: 0 <= i < |entities| - 1 ==> entities[1..][i] == entities[i + 1];
      FlattenCreation(reading, entities[1..]);
      assert creates == [creates[0]] + CreateStatements(entities[1..]);
    }
  }

  /** When no entity is refused, creation runs one `CREATE TABLE` per entity in model order,
      each named after its entity, then creates the version table, then records the version. */
  lemma CreationOrder(reading: Reading, model: Model, version: int)
    requires AllAdmitted(reading, model.entities)
    ensures CreationPlan(reading, model, version).stop.None?
    ensures CreationPlan(reading, model, version).stmts ==
            CreateStatements(model.entities) + [CreateVersionTable, InsertVersion(version)]
  {
    var steps := CreationSteps(reading, model.entities);
    assert forall i :: 0 <= i < |steps| ==> steps[i].Ok?;
    FlattenCreation(reading, model.entities);
  }

  /** At the first entity `createTable` refuses (as written, one without properties; corrected,
      one without attributes) creation stops with `zeroColumnTable` naming it: only the tables
      of the entities before it are created, and neither the version table nor a version row
      is. */
  lemma CreationStopsAtRefusedEntity(reading: Reading, model: Model, version: int, k: nat)
    requires k < |model.entities| && Ddl.Refuses(reading, model.entities[k].properties)
    requires AllAdmitted(reading, model.entities[..k])
    ensures CreationPlan(reading, model, version).stop == Some(ZeroColumnTable(model.entities[k].name))
    ensures CreationPlan(reading, model, version).stmts == CreateStatements(model.entities[..k])
  {
    var steps := CreationSteps(reading, model.entities);
    assert forall i :: 0 <= i < k ==> model.entities[..k][i] == model.entities[i];
    assert forall i :: 0 <= i < k ==> steps[i].Ok?;
    assert steps[k].Err?;
    assert FirstFailure(steps) == k;
    assert steps[..k] == CreationSteps(reading, model.entities[..k]);
    FlattenCreation(reading, model.entities[..k]);
  }

  /** The guards agree on every model whose entities each have no properties or have an
      attribute, and there `create` makes the same plan as written and corrected. */
  lemma CreationAgreement(model: Model, version: int)
    requires forall i :: 0 <= i < |model.entities| ==>
               |model.entities[i].properties| == 0 || HasAttribute(model.entities[i].properties)
    ensures CreationPlan(AsWritten, model, version) == CreationPlan(Corrected, model, version)
  {
    var e := model.entities;
    forall i | 0 <= i < |e|
      ensures Step(AsWritten, e[i]) == Step(Corrected, e[i])
    {
      Ddl.CreateTableAgreement(e[i], None);
    }
    assert CreationSteps(AsWritten, e) == CreationSteps(Corrected, e);
  }

  /** While `createTable` refuses none of the first `n` entities, the plan starts with their
      `CREATE TABLE` statements, whatever comes after them. */
  lemma CreationPrefix(reading: Reading, model: Model, version: int, n: nat)
    requires n <= |model.entities| && AllAdmitted(reading, model.entities[..n])
    ensures CreateStatements(model.entities[..n]) <= CreationPlan(reading, model, version).stmts
  {
    var e := model.entities;
    var steps := CreationSteps(reading, e);
    assert forall i :: 0 <= i < n ==> e[..n][i] == e[i];
    assert steps[..n] == CreationSteps(reading, e[..n]);
    FlattenCreation(reading, e[..n]);
    SequencePrefix(steps, CreationTail(version), n);
  }

  /** Where they differ: at the first entity with properties but no attribute, when every
      entity before it has an attribute, the code as written goes on to send
      `CREATE TABLE "<name>"()` after the tables before it, while the corrected code stops
      there with `zeroColumnTable` (`CreationStopsAtRefusedEntity`). */
  lemma EmptyTableSent(model: Model, version: int, k: nat)
    requires k < |model.entities|
    requires |model.entities[k].properties| > 0 && !HasAttribute(model.entities[k].properties)
    requires forall i :: 0 <= i < k ==> HasAttribute(model.entities[i].properties)
    ensures k < |CreationPlan(AsWritten, model, version).stmts|
    ensures CreationPlan(AsWritten, model, version).stmts[..k] == CreateStatements(model.entities[..k])
    ensures CreationPlan(AsWritten, model, version).stmts[k] == Sql.CreateTable(model.entities[k].name, "")
  {
    var e := model.entities;
    var upto := e[..k + 1];
    assert forall i :: 0 <= i <= k ==> upto[i] == e[i];
    CreationPrefix(AsWritten, model, version, k + 1);
    var creates := CreateStatements(upto);
    CreateStatementsPrefix(upto, k);
    assert upto[..k] == e[..k];
    Ddl.NoAttributesNoColumns(e[k].properties);
    assert creates[k] == Sql.CreateTable(e[k].name, "");
  }

  lemma CreateStatementsPrefix(entities: seq<Entity>, n: nat)
    requires n <= |entities|
    ensures CreateStatements(entities)[..n] == CreateStatements(entities[..n])
  {
  }

  /** When SQLite accepts the tables before that entity and, as it does, rejects the empty
      column list, the code as written leaves the database exactly as the corrected code
      does, but throws `sqLiteError` with the code and message SQLite returned for
      `CREATE TABLE "<name>"()` instead of `zeroColumnTable`. */
  lemma EmptyTableRefused(db: Db, driver: Driver, model: Model, version: int, k: nat)
    requires k < |model.entities|
    requires |model.entities[k].properties| > 0 && !HasAttribute(model.entities[k].properties)
    requires forall i :: 0 <= i < k ==> HasAttribute(model.entities[i].properties)
    requires ExecuteAll(db, driver, CreateStatements(model.entities[..k])).result.Ok?
    requires driver(ExecuteAll(db, driver, CreateStatements(model.entities[..k])).db,
                    Render(Sql.CreateTable(model.entities[k].name, ""))).code != SqliteOk
    ensures var asWritten := Run(db, driver, CreationPlan(AsWritten, model, version));
            var corrected := Run(db, driver, CreationPlan(Corrected, model, version));
            && asWritten.db == corrected.db
            && corrected.result == Err(ZeroColumnTable(model.entities[k].name))
            && var refused := driver(ExecuteAll(db, driver, CreateStatements(model.entities[..k])).db,
                                     Render(Sql.CreateTable(model.entities[k].name, "")));
               asWritten.result == Err(SqliteError(refused.code, refused.errMsg))
  {
    var e := model.entities;
    assert forall i :: 0 <= i < k ==> e[..k][i] == e[i];
    CreationStopsAtRefusedEntity(Corrected, model, version, k);
    EmptyTableSent(model, version, k);
    RunRefusedAt(db, driver, CreationPlan(AsWritten, model, version), k);
  }

  /** A creation that succeeds leaves exactly one version row, and that version is current. */
  lemma CreatedVersionIsCurrent(reading: Reading, db: Db, driver: Driver, model: Model, version: int)
    requires InIntRange(version)
    requires Run(db, driver, CreationPlan(reading, model, version)).result.Ok?
    ensures Run(db, driver, CreationPlan(reading, model, version)).db.versionRows == [IntToString(version)]
    ensures CurrentVersion(Run(db, driver, CreationPlan(reading, model, version)).db) == Ok(version)
    ensures CurrentVersionAsWritten(Run(db, driver, CreationPlan(reading, model, version)).db) == Ok(version)
  {
    var body := Flatten(CreationSteps(reading, model.entities));
    ExecuteAllAppend(db, driver, body, CreationTail(version));
    var mid := ExecuteAll(db, driver, body).db;
    TailRecordsVersion(mid, driver, version);
  }

  /** The two statements after the loop: once both run, the version table holds exactly the
      new row. */
  lemma TailRecordsVersion(db: Db, driver: Driver, version: int)
    requires InIntRange(version)
    requires ExecuteAll(db, driver, CreationTail(version)).result.Ok?
    ensures ExecuteAll(db, driver, CreationTail(version)).db.versionRows == [IntToString(version)]
    ensures CurrentVersion(ExecuteAll(db, driver, CreationTail(version)).db) == Ok(version)
    ensures CurrentVersionAsWritten(ExecuteAll(db, driver, CreationTail(version)).db) == Ok(version)
  {
    ExecuteAllCons(db, driver, CreateVersionTable, [InsertVersion(version)]);
    var withTable := Apply(db, CreateVersionTable);
    ExecuteAllCons(withTable, driver, InsertVersion(version), []);
    RecordedVersionIsCurrent(withTable, version);
  }

  /** When SQLite accepts every statement, creation succeeds exactly when `createTable`
      refuses no entity (as written, when every entity has a property), and the log grows by
      exactly the planned statements. */
  lemma CreationAccepted(reading: Reading, db: Db, driver: Driver, model: Model, version: int)
    requires AcceptsAll(driver)
    ensures Run(db, driver, CreationPlan(reading, model, version)).result.Ok? <==>
            AllAdmitted(reading, model.entities)
    ensures reading.AsWritten? ==>
              (Run(db, driver, CreationPlan(reading, model, version)).result.Ok? <==>
               forall i :: 0 <= i < |model.entities| ==> |model.entities[i].properties| > 0)
    ensures Run(db, driver, CreationPlan(reading, model, version)).db.log == db.log + CreationPlan(reading, model, version).stmts
  {
    ExecuteAllAccepted(db, driver, CreationPlan(reading, model, version).stmts);
    var steps := CreationSteps(reading, model.entities);
    var k := FirstFailure(steps);
    if k < |steps| {
      assert Ddl.Refuses(reading, model.entities[k].properties);
    } else {
      assert forall i :: 0 <= i < |steps| ==> steps[i].Ok?;
    }
  }

  /** The loop of `create(version:)` and what follows it: each entity's table in model order,
      stopping at the first error, then the version table and the version row. */
  method CreateTables(reading: Reading, db: Db, driver: Driver, model: Model, v: int) returns (r: After)
    ensures r == Run(db, driver, CreationPlan(reading, model, v))
  {
    var steps := CreationSteps(reading, model.entities);
    var tail := CreationTail(v);
    var cur := db;
    var i := 0;
    while i < |model.entities|
      invariant 0 <= i <= |model.entities|
      invariant Run(db, driver, CreationPlan(reading, model, v)) == Run(cur, driver, Sequence(steps[i..], tail))
    {
      RunSequenceAt(cur, driver, steps, tail, i);
      var table := Ddl.TableFor(reading, model.entities[i], None);
      if table.Err? {
        return After(cur, Err(table.error));
      }
      var ran := Execute(cur, driver, table.value);
      if ran.result.Err? {
        return ran;
      }
      cur := ran.db;
      i := i + 1;
    }
    assert steps[i..] == [];
    RunSequenceDone(cur, driver, tail);
    ExecuteAllCons(cur, driver, CreateVersionTable, [InsertVersion(v)]);
    var ran := Execute(cur, driver, CreateVersionTable);
    if ran.result.Err? {
      return ran;
    }
    ExecuteAllCons(ran.db, driver, InsertVersion(v), []);
    r := Execute(ran.db, driver, InsertVersion(v));
  }

  /** `create(version:)`: loads the model of the version asked for, then creates its tables and
      records the version it declares, which is then current. */
  method Create(reading: Reading, db: Db, driver: Driver, store: ModelStore, modelURL: string, modelName: string,
                version: Option<int>)
    returns (r: After)
    ensures var loaded := LoadModel(store, modelURL, modelName, version);
            loaded.Err? ==> r == After(db, Err(loaded.error))
    ensures var loaded := LoadModel(store, modelURL, modelName, version);
            loaded.Ok? ==> r == Run(db, driver, CreationPlan(reading, loaded.value.0, loaded.value.1))
    ensures r.result.Ok? ==>
              var loaded := LoadModel(store, modelURL, modelName, version);
              && loaded.Ok?
              && CurrentVersion(r.db) == Ok(loaded.value.1)
              && CurrentVersionAsWritten(r.db) == Ok(loaded.value.1)
              && r.db.versionRows == [IntToString(loaded.value.1)]
    ensures r.result.Ok? && version.Some? ==> CurrentVersion(r.db) == Ok(version.value)
  {
    var loaded := LoadModel(store, modelURL, modelName, version);
    if loaded.Err? {
      return After(db, Err(loaded.error));
    }
    var model := loaded.value.0;
    var v := loaded.value.1;
    r := CreateTables(reading, db, driver, model, v);
    if r.result.Ok? {
      CreatedVersionIsCurrent(reading, db, driver, model, v);
    }
  }

  /** A creation interrupted between the version table and the version row: SQLite accepts
      every table and the version table, then refuses the version row. The version table is
      left empty, and reading the version as the source does then times out instead of
      reporting an unknown version. */
  lemma InterruptedCreation(reading: Reading, db: Db, driver: Driver, model: Model, version: int)
    requires AllAdmitted(reading, model.entities)
    requires ExecuteAll(db, driver, CreateStatements(model.entities) + [CreateVersionTable]).result.Ok?
    requires driver(ExecuteAll(db, driver, CreateStatements(model.entities) + [CreateVersionTable]).db,
                    Render(InsertVersion(version))).code != SqliteOk
    ensures var after := Run(db, driver, CreationPlan(reading, model, version));
            && after.result.Err? && after.result.error.SqliteError?
            && VersionTable in after.db.tables && after.db.versionRows == []
            && CurrentVersionAsWritten(after.db) == Err(SqliteRequestTimeout)
            && CurrentVersion(after.db) == Err(UnknownSqliteSchemaVersion)
  {
    CreationOrder(reading, model, version);
    var creates := CreateStatements(model.entities);
    assert CreationPlan(reading, model, version).stmts == (creates + [CreateVersionTable]) + [InsertVersion(version)];
    ExecuteAllAppend(db, driver, creates + [CreateVersionTable], [InsertVersion(version)]);
    ExecuteAllAppend(db, driver, creates, [CreateVersionTable]);
    var tablesMade := ExecuteAll(db, driver, creates).db;
    ExecuteAllCons(tablesMade, driver, CreateVersionTable, []);
    var mid := ExecuteAll(db, driver, creates + [CreateVersionTable]).db;
    ExecuteAllCons(mid, driver, InsertVersion(version), []);
  }
}

=== FILE: database.dfy ===
/** The database as the schema engine sees it, and `execute(_:)`: a statement is handed to
    SQLite as text, and either SQLite accepts it and the schema changes, or SQLite's result
    code and message are thrown. A `Plan` is a list of statements to run in order, possibly
    followed by an error the engine throws once they have all run. */
module Database {
  import opened Outcomes
  import opened Numerals
  import opened Sql

  /** `log`: the statements SQLite accepted, oldest first. `tables`: the tables that exist.
      `versionRows`: the `version` column of `schema_migrations` in insertion (rowid) order, as
      the text SQLite reports for it. */
  datatype Db = Db(log: seq<Statement>, tables: set<string>, versionRows: seq<string>)

  /** What `sqlite3_exec` returns: a result code and, on failure, maybe a message. */
  datatype ExecResult = ExecResult(code: int, errMsg: Option<string>)

  const SqliteOk: int := 0

  /** SQLite itself: given the database and a statement's text, what `sqlite3_exec` returns.
      Any behaviour is allowed (locks, I/O errors, constraint failures, duplicate tables). */
  type Driver = (Db, string) -> ExecResult

  ghost predicate AcceptsAll(driver: Driver) {
    forall db, sql :: driver(db, sql).code == SqliteOk
  }

  /** The database after SQLite accepted `s`. */
  function Apply(db: Db, s: Statement): (r: Db)
    ensures r.log == db.log + [s]
  {
    var log := db.log + [s];
    match s
    case CreateTable(t, _) => Db(log, db.tables + {t}, db.versionRows)
    case DropTable(t) => Db(log, db.tables - {t}, db.versionRows)
    case RenameTable(t, u) => Db(log, db.tables - {t} + {u}, db.versionRows)
    case CreateVersionTable => Db(log, db.tables + {VersionTable}, [])
    case InsertVersion(v) => Db(log, db.tables, db.versionRows + [IntToString(v)])
  }

  /** The database after a call, and what the call returned or threw. */
  datatype After = After(db: Db, result: Result<()>)

  /** `execute(_:)`: a statement SQLite refuses leaves the database as it was and throws
      `sqLiteError` with SQLite's code and message. */
  function Execute(db: Db, driver: Driver, s: Statement): (r: After)
    ensures r.result.Ok? <==> driver(db, Render(s)).code == SqliteOk
    ensures r.result.Ok? ==> r.db == Apply(db, s)
    ensures r.result.Err? ==> r.db == db
    ensures r.result.Err? ==> r.result.error == SqliteError(driver(db, Render(s)).code, driver(db, Render(s)).errMsg)
  {
    var res := driver(db, Render(s));
    if res.code == SqliteOk then After(Apply(db, s), Ok(()))
    else After(db, Err(SqliteError(res.code, res.errMsg)))
  }

  /** Executes `ss` in order and stops at the first statement SQLite refuses. The statements
      that ran are a prefix of `ss`, and all of them ran exactly when the call succeeds. */
  function ExecuteAll(db: Db, driver: Driver, ss: seq<Statement>): (r: After)
    ensures |db.log| <= |r.db.log| <= |db.log| + |ss|
    ensures r.db.log == db.log + ss[..|r.db.log| - |db.log|]
    ensures r.result.Ok? <==> |r.db.log| == |db.log| + |ss|
    ensures r.result.Err? ==> r.result.error.SqliteError?
    decreases |ss|
  {
    if |ss| == 0 then After(db, Ok(()))
    else
      var first := Execute(db, driver, ss[0]);
      if first.result.Err? then first
      else
        var rest := ExecuteAll(first.db, driver, ss[1..]);
        assert ss[..|rest.db.log| - |db.log|] == [ss[0]] + ss[1..][..|rest.db.log| - |first.db.log|];
        rest
  }

  /** Statements the engine will run, in order, and the error it throws after them if any. */
  datatype Plan = Plan(stmts: seq<Statement>, stop: Option<Error>)

  /** Running a plan: its statements, then its error if SQLite accepted all of them. */
  function Run(db: Db, driver: Driver, p: Plan): (r: After)
    ensures r.result.Ok? <==> p.stop.None? && ExecuteAll(db, driver, p.stmts).result.Ok?
    ensures r.db == ExecuteAll(db, driver, p.stmts).db
  {
    var ran := ExecuteAll(db, driver, p.stmts);
    if ran.result.Ok? && p.stop.Some? then After(ran.db, Err(p.stop.value)) else ran
  }

  /** The statements of the succeeding steps of `steps`, in order. */
  function Flatten(steps: seq<Result<Option<Statement>>>): seq<Statement>
    decreases |steps|
  {
    if |steps| == 0 then []
    else
      (match steps[0] case Ok(Some(s)) => [s] case _ => []) + Flatten(steps[1..])
  }

  /** A plan whose statement `n` SQLite refuses, after accepting those before it, throws
      `sqLiteError` with the code and message SQLite returned for that statement, and leaves
      the database as those before it left it. */
  lemma RunRefusedAt(db: Db, driver: Driver, p: Plan, n: nat)
    requires n < |p.stmts|
    requires ExecuteAll(db, driver, p.stmts[..n]).result.Ok?
    requires driver(ExecuteAll(db, driver, p.stmts[..n]).db, Render(p.stmts[n])).code != SqliteOk
    ensures Run(db, driver, p).db == ExecuteAll(db, driver, p.stmts[..n]).db
    ensures var refused := driver(ExecuteAll(db, driver, p.stmts[..n]).db, Render(p.stmts[n]));
            Run(db, driver, p).result == Err(SqliteError(refused.code, refused.errMsg))
  {
    assert p.stmts == p.stmts[..n] + ([p.stmts[n]] + p.stmts[n + 1..]);
    ExecuteAllAppend(db, driver, p.stmts[..n], [p.stmts[n]] + p.stmts[n + 1..]);
    ExecuteAllCons(ExecuteAll(db, driver, p.stmts[..n]).db, driver, p.stmts[n], p.stmts[n + 1..]);
  }

  /** The statements of two runs of steps, one after the other. */
  lemma {:induction false} FlattenAppend(a: seq<Result<Option<Statement>>>, b: seq<Result<Option<Statement>>>)
    ensures Flatten(a + b) == Flatten(a) + Flatten(b)
    decreases |a|
  {
    if |a| == 0 {
      assert a + b == b;
    } else {
      assert (a + b)[0] == a[0] && (a + b)[1..] == a[1..] + b;
      FlattenAppend(a[1..], b);
    }
  }

  /** The index of the first failing step, or `|steps|` when none fails. */
  function FirstFailure(steps: seq<Result<Option<Statement>>>): (k: nat)
    ensures k <= |steps|
    ensures forall i :: 0 <= i < k ==> steps[i].Ok?
    ensures k < |steps| ==> steps[k].Err?
    decreases |steps|
  {
    if |steps| == 0 || steps[0].Err? then 0 else 1 + FirstFailure(steps[1..])
  }

  /** The plan of a loop whose every step yields zero or one statement or throws, followed by
      `tail` once every step has succeeded: the statements of the steps before the first
      failure, then that failure; or all the steps' statements and then `tail`. */
  function Sequence(steps: seq<Result<Option<Statement>>>, tail: seq<Statement>): (p: Plan)
    ensures p.stop.None? <==> FirstFailure(steps) == |steps|
    ensures p.stop.None? ==> p.stmts == Flatten(steps) + tail
    ensures p.stop.Some? ==>
              && p.stop.value == steps[FirstFailure(steps)].error
              && p.stmts == Flatten(steps[..FirstFailure(steps)])
    decreases |steps|
  {
    if |steps| == 0 then Plan(tail, None)
    else
      match steps[0]
      case Err(e) => Plan([], Some(e))
      case Ok(o) =>
        var rest := Sequence(steps[1..], tail);
        var own := match o case Some(s) => [s] case None => [];
        assert rest.stop.Some? ==>
                 steps[..FirstFailure(steps)][1..] == steps[1..][..FirstFailure(steps[1..])];
        Plan(own + rest.stmts, rest.stop)
  }

  /** While the first `n` steps succeed, their statements start the plan. */
  lemma {:induction false} SequencePrefix(steps: seq<Result<Option<Statement>>>, tail: seq<Statement>, n: nat)
    requires n <= |steps|
    requires forall i :: 0 <= i < n ==> steps[i].Ok?
    ensures Flatten(steps[..n]) <= Sequence(steps, tail).stmts
    decreases n
  {
    if n > 0 {
      var own := match steps[0] case Ok(Some(s)) => [s] case _ => [];
      var head := steps[..n];
      assert head[0] == steps[0] && head[1..] == steps[1..][..n - 1];
      assert Flatten(head) == own + Flatten(steps[1..][..n - 1]);
      assert Sequence(steps, tail).stmts == own + Sequence(steps[1..], tail).stmts;
      SequencePrefix(steps[1..], tail, n - 1);
      PrefixCons(own, Flatten(steps[1..][..n - 1]), Sequence(steps[1..], tail).stmts);
    }
  }

  lemma PrefixCons<T>(own: seq<T>, a: seq<T>, b: seq<T>)
    requires a <= b
    ensures own + a <= own + b
  {
    assert (own + b)[..|own + a|] == own + b[..|a|];
  }

  /** A statement that SQLite accepts as the first of a list runs, and the rest follow from the
      database it left. */
  lemma ExecuteAllCons(db: Db, driver: Driver, s: Statement, ss: seq<Statement>)
    ensures ExecuteAll(db, driver, [s] + ss) ==
            var first := Execute(db, driver, s);
            if first.result.Err? then first else ExecuteAll(first.db, driver, ss)
  {
    assert ([s] + ss)[0] == s && ([s] + ss)[1..] == ss;
  }

  /** Running a list in two parts is running the first part, then the second from where the
      first left off, unless the first failed. */
  lemma {:induction false} ExecuteAllAppend(db: Db, driver: Driver, a: seq<Statement>, b: seq<Statement>)
    ensures ExecuteAll(db, driver, a + b) ==
            var first := ExecuteAll(db, driver, a);
            if first.result.Err? then first else ExecuteAll(first.db, driver, b)
    decreases |a|
  {
    if |a| == 0 {
      assert a + b == b;
    } else {
      assert a + b == [a[0]] + (a[1..] + b);
      ExecuteAllCons(db, driver, a[0], a[1..] + b);
      ExecuteAllCons(db, driver, a[0], a[1..]);
      assert [a[0]] + a[1..] == a;
      var first := Execute(db, driver, a[0]);
      if first.result.Ok? {
        ExecuteAllAppend(first.db, driver, a[1..], b);
      }
    }
  }

  /** When SQLite accepts everything, every statement runs and the log grows by exactly them. */
  lemma {:induction false} ExecuteAllAccepted(db: Db, driver: Driver, ss: seq<Statement>)
    requires AcceptsAll(driver)
    ensures ExecuteAll(db, driver, ss).result.Ok?
    ensures ExecuteAll(db, driver, ss).db.log == db.log + ss
    decreases |ss|
  {
    if |ss| > 0 {
      var first := Execute(db, driver, ss[0]);
      assert driver(db, Render(ss[0])).code == SqliteOk;
      ExecuteAllAccepted(first.db, driver, ss[1..]);
    }
  }

  /** One iteration of such a loop: running the plan of `steps` from `db` is handling the first
      step (throwing its error, or executing its statement) and then running the plan of the
      remaining steps from where that left the database. */
  lemma RunSequenceStep(db: Db, driver: Driver, steps: seq<Result<Option<Statement>>>, tail: seq<Statement>)
    requires |steps| > 0
    ensures Run(db, driver, Sequence(steps, tail)) ==
            match steps[0]
            case Err(e) => After(db, Err(e))
            case Ok(None) => Run(db, driver, Sequence(steps[1..], tail))
            case Ok(Some(s)) =>
              var first := Execute(db, driver, s);
              if first.result.Err? then first else Run(first.db, driver, Sequence(steps[1..], tail))
  {
    match steps[0]
    case Err(e) =>
    case Ok(None) =>
      assert Sequence(steps, tail).stmts == Sequence(steps[1..], tail).stmts;
    case Ok(Some(s)) =>
      ExecuteAllCons(db, driver, s, Sequence(steps[1..], tail).stmts);
  }

  /** Iteration `i` of such a loop, in the form a loop invariant uses: the plan of the steps
      from `i` on, run from `db`. */
  lemma RunSequenceAt(db: Db, driver: Driver, steps: seq<Result<Option<Statement>>>, tail: seq<Statement>, i: nat)
    requires i < |steps|
    ensures steps[i].Err? ==> Run(db, driver, Sequence(steps[i..], tail)) == After(db, Err(steps[i].error))
    ensures steps[i] == Ok(None) ==>
              Run(db, driver, Sequence(steps[i..], tail)) == Run(db, driver, Sequence(steps[i + 1..], tail))
    ensures steps[i].Ok? && steps[i].value.Some? ==>
              var first := Execute(db, driver, steps[i].value.value);
              Run(db, driver, Sequence(steps[i..], tail)) ==
              if first.result.Err? then first else Run(first.db, driver, Sequence(steps[i + 1..], tail))
  {
    RunSequenceStep(db, driver, steps[i..], tail);
    assert steps[i..][1..] == steps[i + 1..];
  }

  /** The last iteration: with no steps left, the plan is the tail. */
  lemma RunSequenceDone(db: Db, driver: Driver, tail: seq<Statement>)
    ensures Run(db, driver, Sequence([], tail)) == ExecuteAll(db, driver, tail)
  {
  }
}

=== FILE: ddl.dfy ===
/** `createTable(for:name:)`: the `CREATE TABLE` statement for one entity. Each attribute
    becomes one column clause (name, affinity keyword, `NOT NULL`, `DEFAULT`); every other
    kind of property is skipped. */
module Ddl {
  import opened Outcomes
  import opened Schema
  import Sql

  /** The type keyword (with its leading space) written after an attribute's name. */
  function AffinityKeyword(t: AttrType): (k: string)
    ensures k == " INTEGER" <==> t in {Integer16Type, Integer32Type, Integer64Type, ObjectIDType}
    ensures k == " TEXT" <==> t in {StringType, URIType, UUIDType}
    ensures k == " BLOB" <==> t == BinaryDataType
    ensures k == " REAL" <==> t in {DoubleType, FloatType}
    ensures k == " NUMERIC" <==> t in {DecimalType, DateType, BooleanType}
    ensures k == "" <==> t in {TransformableType, UndefinedType}
  {
    match t
    case Integer16Type | Integer32Type | Integer64Type | ObjectIDType => " INTEGER"
    case StringType | URIType | UUIDType => " TEXT"
    case BinaryDataType => " BLOB"
    case DoubleType | FloatType => " REAL"
    case DecimalType | DateType | BooleanType => " NUMERIC"
    case TransformableType | UndefinedType => ""
  }

  /** Column affinities of SQLite. */
  datatype Affinity = IntegerAffinity | TextAffinity | BlobAffinity | RealAffinity | NumericAffinity

  predicate Contains(s: string, p: string)
    decreases |s|
  {
    p <= s || (|s| > 0 && Contains(s[1..], p))
  }

  /** How SQLite derives a column's affinity from its declared type, by the five ordered rules
      of section 3.1 of "Datatypes In SQLite" (keywords here are upper case, so the rules'
      case-insensitive matching is plain matching). */
  function DeclaredAffinity(declared: string): Affinity {
    if Contains(declared, "INT") then IntegerAffinity
    else if Contains(declared, "CHAR") || Contains(declared, "CLOB") || Contains(declared, "TEXT") then TextAffinity
    else if Contains(declared, "BLOB") || declared == "" then BlobAffinity
    else if Contains(declared, "REAL") || Contains(declared, "FLOA") || Contains(declared, "DOUB") then RealAffinity
    else NumericAffinity
  }

  /** The storage each Core Data type is meant to get: whole numbers and object IDs as
      integers, text-like values as text, raw and archived data as blobs, floating point as
      reals, and decimals, dates and booleans as numerics. */
  function IntendedAffinity(t: AttrType): Affinity {
    match t
    case Integer16Type | Integer32Type | Integer64Type | ObjectIDType => IntegerAffinity
    case StringType | URIType | UUIDType => TextAffinity
    case BinaryDataType | TransformableType | UndefinedType => BlobAffinity
    case DoubleType | FloatType => RealAffinity
    case DecimalType | DateType | BooleanType => NumericAffinity
  }

  /** SQLite reads every emitted keyword as the affinity the attribute type is meant to get. */
  lemma KeywordGivesIntendedAffinity(t: AttrType)
    ensures DeclaredAffinity(Declared(AffinityKeyword(t))) == IntendedAffinity(t)
  {
    match t
    case Integer16Type => IntegerTypes(t);
    case Integer32Type => IntegerTypes(t);
    case Integer64Type => IntegerTypes(t);
    case ObjectIDType => IntegerTypes(t);
    case StringType => TextTypes(t);
    case URIType => TextTypes(t);
    case UUIDType => TextTypes(t);
    case BinaryDataType => OtherTypes(t);
    case DoubleType => RealTypes(t);
    case FloatType => RealTypes(t);
    case DecimalType => NumericTypes(t);
    case DateType => NumericTypes(t);
    case BooleanType => NumericTypes(t);
    case TransformableType => OtherTypes(t);
    case UndefinedType => OtherTypes(t);
  }

  lemma IntegerTypes(t: AttrType)
    requires t in {Integer16Type, Integer32Type, Integer64Type, ObjectIDType}
    ensures DeclaredAffinity(Declared(AffinityKeyword(t))) == IntendedAffinity(t)
  {
    IntegerKeyword();
  }

  lemma TextTypes(t: AttrType)
    requires t in {StringType, URIType, UUIDType}
    ensures DeclaredAffinity(Declared(AffinityKeyword(t))) == IntendedAffinity(t)
  {
    TextKeyword();
  }

  lemma RealTypes(t: AttrType)
    requires t in {DoubleType, FloatType}
    ensures DeclaredAffinity(Declared(AffinityKeyword(t))) == IntendedAffinity(t)
  {
    RealKeyword();
  }

  lemma NumericTypes(t: AttrType)
    requires t in {DecimalType, DateType, BooleanType}
    ensures DeclaredAffinity(Declared(AffinityKeyword(t))) == IntendedAffinity(t)
  {
    NumericKeyword();
  }

  lemma OtherTypes(t: AttrType)
    requires t in {BinaryDataType, TransformableType, UndefinedType}
    ensures DeclaredAffinity(Declared(AffinityKeyword(t))) == IntendedAffinity(t)
  {
    if t == BinaryDataType {
      BlobKeyword();
    } else {
      NoKeyword();
    }
  }

  lemma IntegerKeyword()
    ensures DeclaredAffinity(Declared(" INTEGER")) == IntegerAffinity
  {
    assert Declared(" INTEGER") == "INTEGER";
    assert "INTEGER"[..3] == "INT";
  }

  lemma TextKeyword()
    ensures DeclaredAffinity(Declared(" TEXT")) == TextAffinity
  {
    assert Declared(" TEXT") == "TEXT";
    Lacks("TEXT", "INT", 'I');
    Lacks("TEXT", "CHAR", 'C');
    Lacks("TEXT", "CLOB", 'C');
    assert "TEXT"[..4] == "TEXT";
  }

  lemma BlobKeyword()
    ensures DeclaredAffinity(Declared(" BLOB")) == BlobAffinity
  {
    assert Declared(" BLOB") == "BLOB";
    Lacks("BLOB", "INT", 'I');
    Lacks("BLOB", "CHAR", 'C');
    Lacks("BLOB", "CLOB", 'C');
    Lacks("BLOB", "TEXT", 'T');
    assert "BLOB"[..4] == "BLOB";
  }

  lemma RealKeyword()
    ensures DeclaredAffinity(Declared(" REAL")) == RealAffinity
  {
    assert Declared(" REAL") == "REAL";
    Lacks("REAL", "INT", 'I');
    Lacks("REAL", "CHAR", 'C');
    Lacks("REAL", "CLOB", 'C');
    Lacks("REAL", "TEXT", 'T');
    Lacks("REAL", "BLOB", 'B');
    assert "REAL"[..4] == "REAL";
  }

  lemma NumericKeyword()
    ensures DeclaredAffinity(Declared(" NUMERIC")) == NumericAffinity
  {
    assert " NUMERIC"[1..] == "NUMERIC";
    NumericIsNotIntegerOrText();
    NumericIsNotBlobOrReal();
  }

  /** `NUMERIC` matches neither the first rule nor the second. */
  lemma NumericIsNotIntegerOrText()
    ensures !Contains("NUMERIC", "INT") && !Contains("NUMERIC", "CHAR")
    ensures !Contains("NUMERIC", "CLOB") && !Contains("NUMERIC", "TEXT")
  {
    Lacks("NUMERIC", "INT", 'T');
    NoTextPattern("NUMERIC");
  }

  /** `NUMERIC` matches neither the third rule nor the fourth. */
  lemma NumericIsNotBlobOrReal()
    ensures !Contains("NUMERIC", "BLOB") && !Contains("NUMERIC", "REAL")
    ensures !Contains("NUMERIC", "FLOA") && !Contains("NUMERIC", "DOUB")
  {
    NoBlobOrRealPattern("NUMERIC");
  }

  /** A declared type without `H`, `L` and `X` does not match the second rule. */
  lemma NoTextPattern(s: string)
    requires 'H' !in s && 'L' !in s && 'X' !in s
    ensures !Contains(s, "CHAR") && !Contains(s, "CLOB") && !Contains(s, "TEXT")
  {
    Lacks(s, "CHAR", 'H');
    Lacks(s, "CLOB", 'L');
    Lacks(s, "TEXT", 'X');
  }

  /** A declared type without `B`, `A`, `F` and `D` matches neither the BLOB pattern of the
      third rule nor the fourth rule. */
  lemma NoBlobOrRealPattern(s: string)
    requires 'B' !in s && 'A' !in s && 'F' !in s && 'D' !in s
    ensures !Contains(s, "BLOB") && !Contains(s, "REAL") && !Contains(s, "FLOA") && !Contains(s, "DOUB")
  {
    Lacks(s, "BLOB", 'B');
    Lacks(s, "REAL", 'A');
    Lacks(s, "FLOA", 'F');
    Lacks(s, "DOUB", 'D');
  }

  /** A column with no declared type gets BLOB affinity (the third rule). */
  lemma NoKeyword()
    ensures DeclaredAffinity(Declared("")) == BlobAffinity
  {
    Lacks("", "INT", 'I');
    Lacks("", "CHAR", 'C');
    Lacks("", "CLOB", 'C');
    Lacks("", "TEXT", 'T');
  }

  /** The declared type of a column: the keyword without its leading space. */
  function Declared(keyword: string): string {
    if |keyword| == 0 then keyword else keyword[1..]
  }

  /** A text missing one of a pattern's characters does not contain the pattern. */
  lemma {:induction false} Lacks(s: string, p: string, c: char)
    requires c in p && c !in s
    ensures !Contains(s, p)
    decreases |s|
  {
    if |s| > 0 {
      Lacks(s[1..], p, c);
    }
  }

  const NotNull: string := " NOT NULL"
  const DefaultKeyword: string := " DEFAULT "

  /** The column clause of one attribute: its name, its type keyword, `NOT NULL` unless it is
      optional, and `DEFAULT` with its default value when it has one. */
  function ColumnClause(a: Property): string
    requires a.Attribute?
  {
    a.name + AffinityKeyword(a.attributeType) + NullSuffix(a) + DefaultSuffix(a)
  }

  function NullSuffix(a: Property): string
    requires a.Attribute?
  {
    if a.isOptional then "" else NotNull
  }

  function DefaultSuffix(a: Property): string
    requires a.Attribute?
  {
    DefaultText(a.defaultValue)
  }

  /** The `DEFAULT` part of a column clause: the keyword and the value, or nothing. */
  function DefaultText(default: Option<string>): string {
    match default
    case Some(v) => DefaultKeyword + v
    case None => ""
  }

  /** What a column clause says about its column. */
  datatype Column = Column(name: string, keyword: string, notNull: bool, defaultValue: Option<string>)

  /** The text before the first space. */
  function TakeName(s: string): (r: string)
    ensures |r| <= |s| && s[..|r|] == r
  {
    if |s| == 0 || s[0] == ' ' then "" else [s[0]] + TakeName(s[1..])
  }

  lemma {:induction false} TakeNameOf(n: string, rest: string)
    requires ' ' !in n
    requires rest == "" || rest[0] == ' '
    ensures TakeName(n + rest) == n
  {
    if |n| > 0 {
      assert (n + rest)[1..] == n[1..] + rest;
      TakeNameOf(n[1..], rest);
      assert [n[0]] + n[1..] == n;
    } else {
      assert n + rest == rest;
    }
  }

  /** The type keyword at the start of `s`, if any, and what follows it. */
  function SplitKeyword(s: string): (string, string) {
    if " INTEGER" <= s then (" INTEGER", s[8..])
    else if " TEXT" <= s then (" TEXT", s[5..])
    else if " BLOB" <= s then (" BLOB", s[5..])
    else if " REAL" <= s then (" REAL", s[5..])
    else if " NUMERIC" <= s then (" NUMERIC", s[8..])
    else ("", s)
  }

  /** Reads a column clause back: name, type keyword, `NOT NULL` and default value. */
  function ParseColumn(c: string): Option<Column> {
    var name := TakeName(c);
    var (keyword, afterType) := SplitKeyword(c[|name|..]);
    var notNull := NotNull <= afterType;
    var rest := if notNull then afterType[|NotNull|..] else afterType;
    if rest == "" then Some(Column(name, keyword, notNull, None))
    else if DefaultKeyword <= rest then Some(Column(name, keyword, notNull, Some(rest[|DefaultKeyword|..])))
    else None
  }

  /** The text after the type keyword: an optional `NOT NULL`, then an optional default. */
  predicate Suffixes(s: string, notNull: bool, default: Option<string>) {
    s == (if notNull then NotNull else "") + DefaultText(default)
  }

  lemma SplitKeywordOf(k: string, tail: string, notNull: bool, default: Option<string>)
    requires k in {" INTEGER", " TEXT", " BLOB", " REAL", " NUMERIC", ""}
    requires Suffixes(tail, notNull, default)
    ensures SplitKeyword(k + tail) == (k, tail)
  {
    if k == "" {
      assert k + tail == tail;
      SplitNoKeyword(tail, notNull, default);
    } else {
      SplitNamedKeyword(k, tail);
    }
  }

  lemma SplitNoKeyword(tail: string, notNull: bool, default: Option<string>)
    requires Suffixes(tail, notNull, default)
    ensures SplitKeyword(tail) == ("", tail)
  {
    if |tail| > 0 {
      assert tail[1] == 'N' || tail[1] == 'D';
      assert tail[1] == 'N' ==> tail[2] == 'O';
    }
  }

  /** The five keywords differ in their second character. */
  lemma SplitNamedKeyword(k: string, tail: string)
    requires k in {" INTEGER", " TEXT", " BLOB", " REAL", " NUMERIC"}
    ensures SplitKeyword(k + tail) == (k, tail)
  {
    var s := k + tail;
    assert s[..|k|] == k;
    assert s[1] == k[1];
    assert s[|k|..] == tail;
  }

  lemma SplitNullOf(tail: string, notNull: bool, default: Option<string>)
    requires Suffixes(tail, notNull, default)
    ensures NotNull <= tail <==> notNull
    ensures notNull ==> tail[|NotNull|..] == DefaultText(default)
  {
    var d := DefaultText(default);
    if notNull {
      assert tail == NotNull + d;
      assert tail[..|NotNull|] == NotNull;
    } else if |tail| > 1 {
      assert tail[1] == 'D';
    }
  }

  /** Reading an attribute's column clause recovers its name, its type keyword, whether it is
      `NOT NULL` (exactly when the attribute is not optional) and its default value. */
  lemma ParseColumnClause(a: Property)
    requires a.Attribute? && ' ' !in a.name
    ensures ParseColumn(ColumnClause(a)) ==
            Some(Column(a.name, AffinityKeyword(a.attributeType), !a.isOptional, a.defaultValue))
  {
    var k := AffinityKeyword(a.attributeType);
    var tail := NullSuffix(a) + DefaultSuffix(a);
    assert ColumnClause(a) == a.name + (k + tail);
    ParseColumnOf(a.name, k, tail, !a.isOptional, a.defaultValue);
  }

  lemma ParseColumnOf(n: string, k: string, tail: string, notNull: bool, default: Option<string>)
    requires ' ' !in n
    requires k in {" INTEGER", " TEXT", " BLOB", " REAL", " NUMERIC", ""}
    requires Suffixes(tail, notNull, default)
    ensures ParseColumn(n + (k + tail)) == Some(Column(n, k, notNull, default))
  {
    var c := n + (k + tail);
    NameThenRest(n, k, tail, notNull, default);
    SplitKeywordOf(k, tail, notNull, default);
    assert SplitKeyword(c[|TakeName(c)|..]) == (k, tail);
    SplitNullOf(tail, notNull, default);
    var rest := if notNull then tail[|NotNull|..] else tail;
    var d := DefaultText(default);
    assert rest == d;
    DefaultOf(default);
  }

  lemma NameThenRest(n: string, k: string, tail: string, notNull: bool, default: Option<string>)
    requires ' ' !in n
    requires k in {" INTEGER", " TEXT", " BLOB", " REAL", " NUMERIC", ""}
    requires Suffixes(tail, notNull, default)
    ensures TakeName(n + (k + tail)) == n && (n + (k + tail))[|n|..] == k + tail
  {
    if |k + tail| > 0 {
      if k == "" {
        assert (k + tail)[0] == tail[0];
        if notNull {
          assert tail[0] == NotNull[0];
        }
      } else {
        assert (k + tail)[0] == k[0];
      }
    }
    TakeNameOf(n, k + tail);
  }

  lemma DefaultOf(default: Option<string>)
    ensures var rest := DefaultText(default);
            && (rest == "" <==> default.None?)
            && (default.Some? ==> DefaultKeyword <= rest && rest[|DefaultKeyword|..] == default.value)
  {
    match default
    case Some(v) =>
      var rest := DefaultKeyword + v;
      assert rest[..|DefaultKeyword|] == DefaultKeyword;
      assert rest[|DefaultKeyword|..] == v;
    case None =>
  }

  /** One step of the loop over an entity's properties: an attribute appends its clause,
      preceded by `", "` when the column list is not empty; anything else is skipped. */
  function AppendColumn(columns: string, p: Property): string {
    if p.Attribute? then (if |columns| == 0 then "" else columns + ", ") + ColumnClause(p)
    else columns
  }

  /** The column list the loop builds from `ps`. */
  function Columns(ps: seq<Property>): string
    decreases |ps|
  {
    if |ps| == 0 then "" else AppendColumn(Columns(ps[..|ps| - 1]), ps[|ps| - 1])
  }

  /** One clause per attribute, in property order. */
  function Clauses(ps: seq<Property>): (r: seq<string>)
    ensures |r| == |Attributes(ps)|
  {
    var attrs := Attributes(ps);
    seq(|attrs|, i requires 0 <= i < |attrs| => ColumnClause(attrs[i]))
  }

  function Join(parts: seq<string>, sep: string): string
    decreases |parts|
  {
    if |parts| == 0 then ""
    else if |parts| == 1 then parts[0]
    else parts[0] + sep + Join(parts[1..], sep)
  }

  lemma {:induction false} JoinSnoc(parts: seq<string>, sep: string, last: string)
    ensures Join(parts + [last], sep) == if |parts| == 0 then last else Join(parts, sep) + sep + last
    decreases |parts|
  {
    if |parts| > 1 {
      assert (parts + [last])[1..] == parts[1..] + [last];
      JoinSnoc(parts[1..], sep, last);
    } else if |parts| == 1 {
      assert (parts + [last])[1..] == [last];
    }
  }

  /** Every attribute has a non-empty name, as Core Data requires of a valid model. */
  predicate NamedAttributes(ps: seq<Property>) {
    forall i :: 0 <= i < |ps| && ps[i].Attribute? ==> |ps[i].name| > 0
  }

  /** The loop's column list is exactly the attributes' clauses joined by `", "`: one clause
      per attribute, in order, with no separator before the first. */
  lemma {:induction false} ColumnsJoin(ps: seq<Property>)
    requires NamedAttributes(ps)
    ensures Columns(ps) == Join(Clauses(ps), ", ")
    decreases |ps|
  {
    if |ps| > 0 {
      var init := ps[..|ps| - 1];
      var last := ps[|ps| - 1];
      assert NamedAttributes(init) by {
        forall i | 0 <= i < |init| && init[i].Attribute? ensures |init[i].name| > 0 {
          assert init[i] == ps[i];
        }
      }
      ColumnsJoin(init);
      ClausesSnoc(ps);
      if last.Attribute? {
        var c := ColumnClause(last);
        JoinSnoc(Clauses(init), ", ", c);
        if |Clauses(init)| > 0 {
          FirstClauseNonEmpty(init);
          JoinNonEmpty(Clauses(init), ", ");
        }
      }
    }
  }

  lemma ClausesSnoc(ps: seq<Property>)
    requires |ps| > 0
    ensures var last := ps[|ps| - 1];
            Clauses(ps) == Clauses(ps[..|ps| - 1]) + (if last.Attribute? then [ColumnClause(last)] else [])
  {
  }

  lemma FirstClauseNonEmpty(ps: seq<Property>)
    requires NamedAttributes(ps) && |Clauses(ps)| > 0
    ensures |Clauses(ps)[0]| > 0
  {
    var first := Attributes(ps)[0];
    assert first in ps;
  }

  lemma JoinNonEmpty(parts: seq<string>, sep: string)
    requires |parts| > 0 && |parts[0]| > 0
    ensures |Join(parts, sep)| > 0
  {
  }

  /** Properties other than attributes contribute nothing to the column list. */
  lemma {:induction false} ColumnsSkipRelationships(ps: seq<Property>)
    ensures Columns(ps) == Columns(Attributes(ps))
    decreases |ps|
  {
    if |ps| > 0 {
      var init := ps[..|ps| - 1];
      var last := ps[|ps| - 1];
      ColumnsSkipRelationships(init);
      if last.Attribute? {
        var a := Attributes(init) + [last];
        assert a[..|a| - 1] == Attributes(init);
      }
    }
  }

  function TableName(entity: Entity, name: Option<string>): string {
    match name
    case Some(n) => n
    case None => entity.name
  }

  /** The `CREATE TABLE` statement for `entity`, named `name` or else after the entity; an
      entity without attributes is refused with `zeroColumnTable`, and no statement is made. */
  function CreateTable(entity: Entity, name: Option<string>): (r: Result<Sql.Statement>)
    ensures r.Err? <==> !HasAttribute(entity.properties)
    ensures r.Err? ==> r.error == ZeroColumnTable(TableName(entity, name))
    ensures r.Ok? ==> r.value.CreateTable? && r.value.table == TableName(entity, name)
    ensures r.Ok? && NamedAttributes(entity.properties) ==>
              r.value.columns == Join(Clauses(entity.properties), ", ") && |r.value.columns| > 0
  {
    if !HasAttribute(entity.properties) then Err(ZeroColumnTable(TableName(entity, name)))
    else
      CreateTableColumns(entity.properties);
      Ok(Sql.CreateTable(TableName(entity, name), Columns(entity.properties)))
  }

  lemma CreateTableColumns(ps: seq<Property>)
    requires HasAttribute(ps)
    ensures NamedAttributes(ps) ==> Columns(ps) == Join(Clauses(ps), ", ") && |Columns(ps)| > 0
  {
    if NamedAttributes(ps) {
      ColumnsJoin(ps);
      AttributesEmpty(ps);
      var first := Attributes(ps)[0];
      assert first in ps;
      JoinNonEmpty(Clauses(ps), ", ");
    }
  }

  /** `createTable` as the source writes it: the guard tests for an empty property list, so an
      entity whose properties are all relationships passes it with an empty column list. */
  function CreateTableAsWritten(entity: Entity, name: Option<string>): (r: Result<Sql.Statement>)
    ensures r.Err? <==> |entity.properties| == 0
    ensures r.Err? ==> r.error == ZeroColumnTable(TableName(entity, name))
    ensures r.Ok? ==> r.value.CreateTable? && r.value.table == TableName(entity, name)
    ensures r.Ok? && !HasAttribute(entity.properties) ==> r.value.columns == ""
  {
    if |entity.properties| == 0 then Err(ZeroColumnTable(TableName(entity, name)))
    else
      NoAttributesNoColumns(entity.properties);
      Ok(Sql.CreateTable(TableName(entity, name), Columns(entity.properties)))
  }

  lemma NoAttributesNoColumns(ps: seq<Property>)
    ensures !HasAttribute(ps) ==> Columns(ps) == ""
  {
    ColumnsSkipRelationships(ps);
    AttributesEmpty(ps);
  }

  /** The two guards disagree exactly on entities that have properties but no attributes. */
  lemma CreateTableAgreement(entity: Entity, name: Option<string>)
    ensures CreateTableAsWritten(entity, name) == CreateTable(entity, name) <==>
            (|entity.properties| == 0 || HasAttribute(entity.properties))
  {
    if |entity.properties| == 0 {
      assert !HasAttribute(entity.properties);
    }
  }

  /** Whether `createTable` refuses an entity with properties `ps` under `reading`: as
      written, only when there are none; corrected, when none of them is an attribute. */
  predicate Refuses(reading: Reading, ps: seq<Property>) {
    match reading
    case AsWritten => |ps| == 0
    case Corrected => !HasAttribute(ps)
  }

  /** `createTable(for:name:)` under `reading`. When it does not refuse the entity, both
      readings make the same statement. */
  function TableFor(reading: Reading, entity: Entity, name: Option<string>): (r: Result<Sql.Statement>)
    ensures r.Err? <==> Refuses(reading, entity.properties)
    ensures r.Err? ==> r.error == ZeroColumnTable(TableName(entity, name))
    ensures r.Ok? ==> r.value == Sql.CreateTable(TableName(entity, name), Columns(entity.properties))
    ensures r.Ok? && reading.AsWritten? && !HasAttribute(entity.properties) ==> r.value.columns == ""
  {
    match reading
    case AsWritten => CreateTableAsWritten(entity, name)
    case Corrected => CreateTable(entity, name)
  }

  /** An entity with one relationship and no attribute: the source emits a `CREATE TABLE`
      with an empty column list, which is not valid SQL; the corrected guard refuses it. */
  lemma RelationshipOnlyEntity()
    ensures var trip := Entity("Trip", [Relationship("legs")]);
            && CreateTableAsWritten(trip, None) == Ok(Sql.CreateTable("Trip", ""))
            && Sql.Render(Sql.CreateTable("Trip", "")) == "CREATE TABLE \"Trip\"()"
            && CreateTable(trip, None) == Err(ZeroColumnTable("Trip"))
  {
    var trip := Entity("Trip", [Relationship("legs")]);
    NoAttributesNoColumns(trip.properties);
  }

  /** Dropping the non-attribute properties of an entity does not change its corrected
      statement. As written, the column list is still that of the attributes alone, and the
      statement changes only for an entity with relationships but no attribute, which the
      code as written accepts and its attributes alone do not. */
  lemma CreateTableSkipsRelationships(entity: Entity, name: Option<string>)
    ensures CreateTable(entity, name) == CreateTable(Entity(entity.name, Attributes(entity.properties)), name)
    ensures CreateTableAsWritten(entity, name).Ok? ==>
              CreateTableAsWritten(entity, name).value.columns == Columns(Attributes(entity.properties))
    ensures CreateTableAsWritten(entity, name) != CreateTableAsWritten(Entity(entity.name, Attributes(entity.properties)), name) <==>
              |entity.properties| > 0 && !HasAttribute(entity.properties)
  {
    var ps := entity.properties;
    ColumnsSkipRelationships(ps);
    AttributesEmpty(ps);
    var attrs := Attributes(ps);
    if HasAttribute(ps) {
      assert attrs[0].Attribute?;
    } else {
      assert !HasAttribute(attrs);
    }
  }
}

=== FILE: migration.dfy ===
/** `migrate(to:)`: loads the target model and the model of the version currently recorded,
    asks Core Data for the mapping between them, turns each entity mapping into at most one
    statement (create, drop or rename a table), and finally records the target version. */
module Migration {
  import opened Outcomes
  import opened Numerals
  import opened Schema
  import opened Sql
  import opened Database
  import opened Versions
  import Ddl

  /** `NSEntityMappingType`. */
  datatype MappingType =
    | UndefinedMapping
    | CustomMapping
    | AddMapping
    | RemoveMapping
    | CopyMapping
    | TransformMapping

  /** An entity mapping of an inferred mapping model: how one entity of the source model
      becomes one of the destination model. Either name may be missing. */
  datatype EntityMapping = EntityMapping(
    mappingType: MappingType,
    sourceEntityName: Option<string>,
    destinationEntityName: Option<string>)

  /** The table names a mapping mentions. */
  function Names(m: EntityMapping): (r: set<string>)
    ensures forall n :: n in r <==> Some(n) == m.sourceEntityName || Some(n) == m.destinationEntityName
  {
    (if m.sourceEntityName.Some? then {m.sourceEntityName.value} else {}) +
    (if m.destinationEntityName.Some? then {m.destinationEntityName.value} else {})
  }

  /** A statement that changes the user tables and leaves `schema_migrations` alone. */
  predicate SchemaChange(s: Statement) {
    s.CreateTable? || s.DropTable? || s.RenameTable?
  }

  /** What an entity mapping means for the set of tables: tables it does not mention are
      unchanged; an added entity's table exists; a removed entity's table does not; a copied
      entity changes nothing; a transformed entity whose name changed lives on under the new
      name only. Custom and undefined mappings have no meaning here. */
  ghost predicate MeetsIntent(before: set<string>, after: set<string>, m: EntityMapping) {
    && (forall t :: t !in Names(m) ==> (t in after <==> t in before))
    && match m.mappingType
       case AddMapping =>
         m.destinationEntityName.Some? && m.destinationEntityName.value in after
       case RemoveMapping =>
         m.sourceEntityName.Some? && m.sourceEntityName.value !in after
       case CopyMapping => after == before
       case TransformMapping =>
         if m.sourceEntityName == m.destinationEntityName then after == before
         else
           && m.sourceEntityName.Some? && m.destinationEntityName.Some?
           && m.destinationEntityName.value in after && m.sourceEntityName.value !in after
       case _ => false
  }

  /** One iteration of the loop of `migrate(to:)`: the statement an entity mapping becomes,
      if any. An add creates the destination entity's table from the target model; a remove
      drops the source table; a copy does nothing; a transform renames the table when the
      name changed. A missing name, or an added entity the target model does not have, traps
      on a force-unwrap. Custom and undefined mappings are refused. An added entity is refused
      as `createTable` refuses it under `reading`. */
  function Dispatch(reading: Reading, model: Model, m: EntityMapping): (r: Result<Option<Statement>>)
    ensures r.Err? && r.error == UnsupportedMigrationType <==>
              m.mappingType.CustomMapping? || m.mappingType.UndefinedMapping?
    ensures r.Err? ==> r.error in {UnsupportedMigrationType, NilUnwrapped} || r.error.ZeroColumnTable?
    ensures r.Ok? && r.value.Some? ==> SchemaChange(r.value.value)
    ensures m.mappingType.CopyMapping? ==> r == Ok(None)
    ensures m.mappingType.AddMapping? && r.Ok? ==>
              && m.destinationEntityName.Some?
              && EntityNamed(model.entities, m.destinationEntityName.value).Some?
              && r.value == Some(Sql.CreateTable(m.destinationEntityName.value,
                                   Ddl.Columns(EntityNamed(model.entities, m.destinationEntityName.value).value.properties)))
    ensures m.mappingType.AddMapping? && m.destinationEntityName.Some? &&
            EntityNamed(model.entities, m.destinationEntityName.value).Some? ==>
              (r.Ok? <==> !Ddl.Refuses(reading, EntityNamed(model.entities, m.destinationEntityName.value).value.properties))
    ensures m.mappingType.AddMapping? &&
            (m.destinationEntityName.None? || EntityNamed(model.entities, m.destinationEntityName.value).None?) ==>
              r == Err(NilUnwrapped)
    ensures m.mappingType.RemoveMapping? ==> (r.Err? <==> m.sourceEntityName.None?)
    ensures m.mappingType.TransformMapping? ==>
              (r.Err? <==> m.sourceEntityName != m.destinationEntityName &&
                           (m.sourceEntityName.None? || m.destinationEntityName.None?))
  {
    var source := m.sourceEntityName;
    var destination := m.destinationEntityName;
    match m.mappingType
    case AddMapping =>
      if destination.None? then Err(NilUnwrapped)
      else
        (match EntityNamed(model.entities, destination.value)
         case None => Err(NilUnwrapped)
         case Some(entity) =>
           var table :- Ddl.TableFor(reading, entity, None);
           Ok(Some(table)))
    case RemoveMapping =>
      if source.None? then Err(NilUnwrapped) else Ok(Some(DropTable(source.value)))
    case CopyMapping => Ok(None)
    case TransformMapping =>
      if source == destination then Ok(None)
      else if source.None? || destination.None? then Err(NilUnwrapped)
      else Ok(Some(RenameTable(source.value, destination.value)))
    case CustomMapping => Err(UnsupportedMigrationType)
    case UndefinedMapping => Err(UnsupportedMigrationType)
  }

  /** The database after the statement of one iteration, if any, was accepted. */
  function Perform(db: Db, o: Option<Statement>): Db {
    match o
    case None => db
    case Some(s) => Apply(db, s)
  }

  /** Every statement a mapping becomes does what the mapping means, and none touches the
      version rows. */
  lemma DispatchMeetsIntent(reading: Reading, db: Db, model: Model, m: EntityMapping)
    requires Dispatch(reading, model, m).Ok?
    ensures MeetsIntent(db.tables, Perform(db, Dispatch(reading, model, m).value).tables, m)
    ensures Perform(db, Dispatch(reading, model, m).value).versionRows == db.versionRows
  {
  }

  function MigrationSteps(reading: Reading, model: Model, ms: seq<EntityMapping>): (steps: seq<Result<Option<Statement>>>)
    ensures |steps| == |ms|
    ensures forall i :: 0 <= i < |ms| ==> steps[i] == Dispatch(reading, model, ms[i])
  {
    seq(|ms|, i requires 0 <= i < |ms| => Dispatch(reading, model, ms[i]))
  }

  /** Everything `migrate(to:)` runs once the mapping is known: the mappings' statements in
      order, stopping at the first error, then the version row. */
  function MigrationPlan(reading: Reading, model: Model, ms: seq<EntityMapping>, version: int): Plan {
    Sequence(MigrationSteps(reading, model, ms), [InsertVersion(version)])
  }

  lemma SchemaChangeKeepsVersions(db: Db, s: Statement)
    requires SchemaChange(s)
    ensures Apply(db, s).versionRows == db.versionRows
  {
  }

  predicate SchemaChanges(ss: seq<Statement>) {
    forall i :: 0 <= i < |ss| ==> SchemaChange(ss[i])
  }

  lemma {:induction false} FlattenSchemaChanges(steps: seq<Result<Option<Statement>>>)
    requires forall i :: 0 <= i < |steps| && steps[i].Ok? && steps[i].value.Some? ==> SchemaChange(steps[i].value.value)
    ensures SchemaChanges(Flatten(steps))
    decreases |steps|
  {
    if |steps| > 0 {
      FlattenSchemaChanges(steps[1..]);
      assert forall i :: 0 <= i < |steps[1..]| ==> steps[1..][i] == steps[i + 1];
    }
  }

  /** A migration whose every mapping goes through ends with the one version row it adds;
      one that stops on an error adds no version row. The version table itself is never
      created or dropped by a mapping's statement. */
  lemma MigrationRecordsVersionLast(reading: Reading, model: Model, ms: seq<EntityMapping>, version: int)
    ensures var p := MigrationPlan(reading, model, ms, version);
            p.stop.None? <==> forall i :: 0 <= i < |ms| ==> Dispatch(reading, model, ms[i]).Ok?
    ensures var p := MigrationPlan(reading, model, ms, version);
            p.stop.None? ==> |p.stmts| > 0 && p.stmts[|p.stmts| - 1] == InsertVersion(version) &&
                             SchemaChanges(p.stmts[..|p.stmts| - 1])
    ensures var p := MigrationPlan(reading, model, ms, version);
            p.stop.Some? ==> SchemaChanges(p.stmts)
  {
    var steps := MigrationSteps(reading, model, ms);
    var p := MigrationPlan(reading, model, ms, version);
    var k := FirstFailure(steps);
    if k < |steps| {
      FlattenSchemaChanges(steps[..k]);
    } else {
      FlattenSchemaChanges(steps);
      assert p.stmts[..|p.stmts| - 1] == Flatten(steps);
    }
  }

  predicate AllCopies(ms: seq<EntityMapping>) {
    forall i :: 0 <= i < |ms| ==> ms[i].mappingType.CopyMapping?
  }

  lemma {:induction false} FlattenCopies(reading: Reading, model: Model, ms: seq<EntityMapping>)
    requires AllCopies(ms)
    ensures Flatten(MigrationSteps(reading, model, ms)) == []
    decreases |ms|
  {
    if |ms| > 0 {
      assert MigrationSteps(reading, model, ms)[1..] == MigrationSteps(reading, model, ms[1..]);
      FlattenCopies(reading, model, ms[1..]);
    }
  }

  /** Migrating between models that only copy entities, as when the target is the version
      already recorded, changes no table and still appends a version row. */
  lemma CopiesOnlyRecordVersion(reading: Reading, model: Model, ms: seq<EntityMapping>, version: int)
    requires AllCopies(ms)
    ensures MigrationPlan(reading, model, ms, version) == Plan([InsertVersion(version)], None)
  {
    FlattenCopies(reading, model, ms);
  }

  /** Every table name mentioned by a mapping of `ms`. */
  function Mentioned(ms: seq<EntityMapping>): (r: set<string>)
    ensures forall i :: 0 <= i < |ms| ==> Names(ms[i]) <= r
    ensures forall n :: n in r <==> exists i :: 0 <= i < |ms| && n in Names(ms[i])
    decreases |ms|
  {
    if |ms| == 0 then {} else Names(ms[0]) + Mentioned(ms[1..])
  }

  /** A migration that succeeds appends exactly its version row and leaves every table that no
      mapping mentions as it was. */
  lemma {:induction false} MigrationFrame(reading: Reading, db: Db, driver: Driver, model: Model, ms: seq<EntityMapping>, version: int)
    requires Run(db, driver, MigrationPlan(reading, model, ms, version)).result.Ok?
    ensures Run(db, driver, MigrationPlan(reading, model, ms, version)).db.versionRows == db.versionRows + [IntToString(version)]
    ensures forall t :: t !in Mentioned(ms) ==>
              (t in Run(db, driver, MigrationPlan(reading, model, ms, version)).db.tables <==> t in db.tables)
    decreases |ms|
  {
    var steps := MigrationSteps(reading, model, ms);
    var tail := [InsertVersion(version)];
    if |ms| == 0 {
      RunSequenceDone(db, driver, tail);
      ExecuteAllCons(db, driver, InsertVersion(version), []);
    } else {
      RunSequenceStep(db, driver, steps, tail);
      assert steps[1..] == MigrationSteps(reading, model, ms[1..]);
      var first := Dispatch(reading, model, ms[0]);
      assert first.Ok?;
      DispatchMeetsIntent(reading, db, model, ms[0]);
      var next := Perform(db, first.value);
      if first.value.Some? {
        assert Execute(db, driver, first.value.value).result.Ok?;
      }
      MigrationFrame(reading, next, driver, model, ms[1..], version);
    }
  }

  /** A migration that fails, whether on a mapping or on a statement SQLite refuses, leaves the
      version rows as they were; one that succeeds appends exactly its version. */
  lemma {:induction false} MigrationVersions(reading: Reading, db: Db, driver: Driver, model: Model, ms: seq<EntityMapping>, version: int)
    ensures var r := Run(db, driver, MigrationPlan(reading, model, ms, version));
            r.result.Err? ==> r.db.versionRows == db.versionRows
    ensures var r := Run(db, driver, MigrationPlan(reading, model, ms, version));
            r.result.Ok? ==> r.db.versionRows == db.versionRows + [IntToString(version)]
    decreases |ms|
  {
    var steps := MigrationSteps(reading, model, ms);
    var tail := [InsertVersion(version)];
    if |ms| == 0 {
      RunSequenceDone(db, driver, tail);
      ExecuteAllCons(db, driver, InsertVersion(version), []);
    } else {
      RunSequenceStep(db, driver, steps, tail);
      assert steps[1..] == MigrationSteps(reading, model, ms[1..]);
      match steps[0]
      case Err(_) =>
      case Ok(None) =>
        MigrationVersions(reading, db, driver, model, ms[1..], version);
      case Ok(Some(s)) =>
        SchemaChangeKeepsVersions(db, s);
        MigrationVersions(reading, Apply(db, s), driver, model, ms[1..], version);
    }
  }

  /** When SQLite accepts every statement, a migration succeeds exactly when every mapping
      can be carried out. */
  lemma MigrationAccepted(reading: Reading, db: Db, driver: Driver, model: Model, ms: seq<EntityMapping>, version: int)
    requires AcceptsAll(driver)
    ensures Run(db, driver, MigrationPlan(reading, model, ms, version)).result.Ok? <==>
            forall i :: 0 <= i < |ms| ==> Dispatch(reading, model, ms[i]).Ok?
  {
    ExecuteAllAccepted(db, driver, MigrationPlan(reading, model, ms, version).stmts);
    MigrationRecordsVersionLast(reading, model, ms, version);
  }

  /** A custom or undefined mapping anywhere in the mapping model makes the migration throw
      before the version row: no version is recorded. When every mapping before it goes
      through, the error is `unsupportedMigrationType` and only the statements of the mappings
      before it run. */
  lemma UnsupportedMappingStops(reading: Reading, db: Db, driver: Driver, model: Model, ms: seq<EntityMapping>,
                                version: int, k: nat)
    requires k < |ms| && (ms[k].mappingType.CustomMapping? || ms[k].mappingType.UndefinedMapping?)
    ensures Run(db, driver, MigrationPlan(reading, model, ms, version)).result.Err?
    ensures Run(db, driver, MigrationPlan(reading, model, ms, version)).db.versionRows == db.versionRows
    ensures (forall i :: 0 <= i < k ==> Dispatch(reading, model, ms[i]).Ok?) ==>
              && MigrationPlan(reading, model, ms, version).stop == Some(UnsupportedMigrationType)
              && MigrationPlan(reading, model, ms, version).stmts == Flatten(MigrationSteps(reading, model, ms[..k]))
  {
    var steps := MigrationSteps(reading, model, ms);
    assert steps[k].Err?;
    MigrationVersions(reading, db, driver, model, ms, version);
    if forall i :: 0 <= i < k ==> Dispatch(reading, model, ms[i]).Ok? {
      assert FirstFailure(steps) == k;
      assert steps[..k] == MigrationSteps(reading, model, ms[..k]);
    }
  }

  /** Where the target model has no entity with properties but no attribute, the two readings
      of `createTable` give every mapping the same statement, and the migration the same plan. */
  lemma MigrationAgreement(model: Model, ms: seq<EntityMapping>, version: int)
    requires forall e :: e in model.entities ==> |e.properties| == 0 || HasAttribute(e.properties)
    ensures MigrationPlan(AsWritten, model, ms, version) == MigrationPlan(Corrected, model, ms, version)
  {
    forall i | 0 <= i < |ms|
      ensures Dispatch(AsWritten, model, ms[i]) == Dispatch(Corrected, model, ms[i])
    {
      var m := ms[i];
      if m.mappingType.AddMapping? && m.destinationEntityName.Some? {
        var found := EntityNamed(model.entities, m.destinationEntityName.value);
        if found.Some? {
          Ddl.CreateTableAgreement(found.value, None);
        }
      }
    }
    assert MigrationSteps(AsWritten, model, ms) == MigrationSteps(Corrected, model, ms);
  }

  /** The loop of `migrate(to:)` and the version row after it: each mapping in order, stopping
      at the first that throws or whose statement SQLite refuses. */
  method ApplyMappings(reading: Reading, db: Db, driver: Driver, model: Model, ms: seq<EntityMapping>, version: int)
    returns (r: After)
    ensures r == Run(db, driver, MigrationPlan(reading, model, ms, version))
  {
    var steps := MigrationSteps(reading, model, ms);
    var tail := [InsertVersion(version)];
    var cur := db;
    var i := 0;
    while i < |ms|
      invariant 0 <= i <= |ms|
      invariant Run(db, driver, MigrationPlan(reading, model, ms, version)) == Run(cur, driver, Sequence(steps[i..], tail))
    {
      RunSequenceAt(cur, driver, steps, tail, i);
      var step := Dispatch(reading, model, ms[i]);
      if step.Err? {
        return After(cur, Err(step.error));
      }
      if step.value.Some? {
        var ran := Execute(cur, driver, step.value.value);
        if ran.result.Err? {
          return ran;
        }
        cur := ran.db;
      }
      i := i + 1;
    }
    assert steps[i..] == [];
    RunSequenceDone(cur, driver, tail);
    ExecuteAllCons(cur, driver, InsertVersion(version), []);
    r := Execute(cur, driver, InsertVersion(version));
  }

  /** The steps of `migrate(to:)` before the loop: load the target model, read the current
      version as `currentVersion()` does under `reading`, load its model, and infer the mapping
      from the current model to the target. Each can throw; the inference failing is
      `MappingInferenceFailed`. */
  function Preliminaries(reading: Reading, db: Db, store: ModelStore, modelURL: string, modelName: string,
                         infer: (Model, Model) -> Option<seq<EntityMapping>>, version: Option<int>)
    : (r: Result<(Model, int, seq<EntityMapping>)>)
    ensures var target := LoadModel(store, modelURL, modelName, version);
            target.Err? ==> r == Err(target.error)
    ensures var target := LoadModel(store, modelURL, modelName, version);
            var current := ReadVersion(reading, db);
            target.Ok? && current.Err? ==> r == Err(current.error)
    ensures reading.AsWritten? && LoadModel(store, modelURL, modelName, version).Ok? &&
            VersionTable in db.tables && |db.versionRows| == 0 ==>
              r == Err(SqliteRequestTimeout)
    ensures var target := LoadModel(store, modelURL, modelName, version);
            var current := ReadVersion(reading, db);
            target.Ok? && current.Ok? && LoadModel(store, modelURL, modelName, Some(current.value)).Err? ==>
              r == Err(LoadModel(store, modelURL, modelName, Some(current.value)).error)
    ensures var target := LoadModel(store, modelURL, modelName, version);
            var current := ReadVersion(reading, db);
            target.Ok? && current.Ok? ==>
              var currentModel := LoadModel(store, modelURL, modelName, Some(current.value));
              currentModel.Ok? && infer(currentModel.value.0, target.value.0).None? ==>
                r == Err(MappingInferenceFailed)
    ensures r.Ok? ==>
              var target := LoadModel(store, modelURL, modelName, version);
              var current := ReadVersion(reading, db);
              && target == Ok((r.value.0, r.value.1))
              && current.Ok?
              && var currentModel := LoadModel(store, modelURL, modelName, Some(current.value));
                 currentModel.Ok? && infer(currentModel.value.0, r.value.0) == Some(r.value.2)
    ensures r.Err? && r.error == MappingInferenceFailed ==>
              var target := LoadModel(store, modelURL, modelName, version);
              var current := ReadVersion(reading, db);
              && target.Ok?
              && current.Ok?
              && var currentModel := LoadModel(store, modelURL, modelName, Some(current.value));
                 currentModel.Ok? && infer(currentModel.value.0, target.value.0).None?
  {
    var target :- LoadModel(store, modelURL, modelName, version);
    var current :- ReadVersion(reading, db);
    var currentModel :- LoadModel(store, modelURL, modelName, Some(current));
    match infer(currentModel.0, target.0)
    case None => Err(MappingInferenceFailed)
    case Some(ms) => Ok((target.0, target.1, ms))
  }

  /** The two readings of `currentVersion()` make the preliminaries differ exactly when the
      target model loads and the version table exists but is empty: the code as written then
      times out, the corrected code reports an unknown version. */
  lemma PreliminariesAgreement(db: Db, store: ModelStore, modelURL: string, modelName: string,
                               infer: (Model, Model) -> Option<seq<EntityMapping>>, version: Option<int>)
    ensures Preliminaries(AsWritten, db, store, modelURL, modelName, infer, version) !=
            Preliminaries(Corrected, db, store, modelURL, modelName, infer, version) <==>
              LoadModel(store, modelURL, modelName, version).Ok? && VersionTable in db.tables && |db.versionRows| == 0
  {
    CurrentVersionAgreement(db);
  }

  /** `migrate(to:)`: nothing runs unless the preliminaries succeed; then the mappings'
      statements and the version row. A failed migration does not change the recorded versions;
      a successful one appends the target version, which is then current as long as the
      version table is still there. */
  method Migrate(reading: Reading, db: Db, driver: Driver, store: ModelStore, modelURL: string, modelName: string,
                 infer: (Model, Model) -> Option<seq<EntityMapping>>, version: Option<int>)
    returns (r: After)
    ensures var prelim := Preliminaries(reading, db, store, modelURL, modelName, infer, version);
            prelim.Err? ==> r == After(db, Err(prelim.error))
    ensures var prelim := Preliminaries(reading, db, store, modelURL, modelName, infer, version);
            prelim.Ok? ==>
              var (model, v, ms) := prelim.value;
              r == Run(db, driver, MigrationPlan(reading, model, ms, v))
    ensures r.result.Err? ==> r.db.versionRows == db.versionRows
    ensures r.result.Ok? ==>
              var prelim := Preliminaries(reading, db, store, modelURL, modelName, infer, version);
              prelim.Ok? && r.db.versionRows == db.versionRows + [IntToString(prelim.value.1)]
    ensures r.result.Ok? && VersionTable in r.db.tables ==>
              var prelim := Preliminaries(reading, db, store, modelURL, modelName, infer, version);
              && CurrentVersion(r.db) == Ok(prelim.value.1)
              && CurrentVersionAsWritten(r.db) == Ok(prelim.value.1)
    ensures r.result.Ok? && version.Some? && VersionTable in r.db.tables ==>
              CurrentVersion(r.db) == Ok(version.value)
  {
    var prelim := Preliminaries(reading, db, store, modelURL, modelName, infer, version);
    if prelim.Err? {
      return After(db, Err(prelim.error));
    }
    var (model, v, ms) := prelim.value;
    r := ApplyMappings(reading, db, driver, model, ms, v);
    MigrationVersions(reading, db, driver, model, ms, v);
    if r.result.Ok? && VersionTable in r.db.tables {
      ParseIntToString(v);
    }
  }
}

=== FILE: numerals.dfy ===
/** Swift's `Int` and its two text conversions used by the version store: string interpolation
    `"\(n)"`, which writes a version into SQL, and the failable `Int(_:)` initialiser, which
    reads one back from a model's version identifier or from a `schema_migrations` row. */
module Numerals {
  import opened Outcomes

  /** Swift's `Int` is 64 bits wide on every platform the library targets. */
  const MinInt: int := -0x8000_0000_0000_0000
  const MaxInt: int := 0x7FFF_FFFF_FFFF_FFFF

  predicate InIntRange(n: int) {
    MinInt <= n <= MaxInt
  }

  predicate IsDigit(c: char) {
    '0' <= c <= '9'
  }

  predicate AllDigits(s: string) {
    forall i :: 0 <= i < |s| ==> IsDigit(s[i])
  }

  function DigitChar(d: nat): (c: char)
    requires d < 10
    ensures IsDigit(c)
  {
    ('0' as int + d) as char
  }

  function DigitValue(c: char): (d: nat)
    requires IsDigit(c)
    ensures d < 10
  {
    c as int - '0' as int
  }

  /** The value of a string of decimal digits, most significant first. */
  function DigitsValue(s: string): nat
    requires AllDigits(s)
    decreases |s|
  {
    if |s| == 0 then 0 else DigitsValue(s[..|s| - 1]) * 10 + DigitValue(s[|s| - 1])
  }

  /** The shortest decimal spelling of `n` (no sign, no leading zeros). */
  function NatToDigits(n: nat): (s: string)
    ensures |s| > 0 && AllDigits(s)
    ensures s[0] != '0' || n == 0
  {
    if n < 10 then [DigitChar(n)] else NatToDigits(n / 10) + [DigitChar(n % 10)]
  }

  lemma {:induction false} DigitsRoundTrip(n: nat)
    ensures DigitsValue(NatToDigits(n)) == n
  {
    if n >= 10 {
      var p := NatToDigits(n / 10);
      var s := p + [DigitChar(n % 10)];
      assert s[..|s| - 1] == p;
      DigitsRoundTrip(n / 10);
    }
  }

  /** Swift's `"\(n)"` for an `Int`: a minus sign for negatives, then the digits. */
  function IntToString(n: int): (s: string)
    ensures |s| > 0
    ensures s[0] == '-' <==> n < 0
    ensures forall i :: 0 < i < |s| ==> IsDigit(s[i])
  {
    if n < 0 then "-" + NatToDigits(-n) else NatToDigits(n)
  }

  /** Swift's `Int(_ description: String)`: an optional `+` or `-`, then one or more ASCII
      digits and nothing else; `nil` for anything else and for values that overflow `Int`. */
  function ParseInt(s: string): (r: Option<int>)
    ensures r.Some? ==> InIntRange(r.value)
    ensures r.Some? ==> |s| > 0 && (IsDigit(s[0]) || s[0] == '+' || s[0] == '-')
    ensures r.Some? ==> forall i :: 0 < i < |s| ==> IsDigit(s[i])
    ensures r.Some? && s[0] == '-' ==> r.value <= 0
    ensures r.Some? && s[0] != '-' ==> r.value >= 0
  {
    if |s| == 0 then None
    else
      var negative := s[0] == '-';
      var digits := if s[0] == '-' || s[0] == '+' then s[1..] else s;
      if |digits| == 0 || !AllDigits(digits) then None
      else
        var v: int := if negative then 0 - DigitsValue(digits) else DigitsValue(digits);
        if InIntRange(v) then Some(v) else None
  }

  /** `Int(_:)` accepts every optional sign followed by one or more digits, leading zeros
      included, and gives the signed value of the digits when it fits in an `Int`. */
  lemma ParseIntAccepts(sign: string, digits: string)
    requires sign == "" || sign == "+" || sign == "-"
    requires |digits| > 0 && AllDigits(digits)
    ensures var v := if sign == "-" then 0 - DigitsValue(digits) else DigitsValue(digits);
            ParseInt(sign + digits) == if InIntRange(v) then Some(v) else None
  {
    if sign != "" {
      assert (sign + digits)[0] == sign[0];
      assert (sign + digits)[1..] == digits;
    } else {
      assert sign + digits == digits;
    }
  }

  /** A non-negative `Int` written with an explicit `+` reads back as itself. */
  lemma ParseIntPlus(n: int)
    requires 0 <= n <= MaxInt
    ensures ParseInt("+" + IntToString(n)) == Some(n)
  {
    DigitsRoundTrip(n);
    ParseIntAccepts("+", NatToDigits(n));
  }

  /** Every `Int` written with `"\(n)"` reads back as itself with `Int(_:)`. */
  lemma ParseIntToString(n: int)
    requires InIntRange(n)
    ensures ParseInt(IntToString(n)) == Some(n)
  {
    if n < 0 {
      NegativeRoundTrip(n);
    } else {
      NonNegativeRoundTrip(n);
    }
  }

  lemma NegativeRoundTrip(n: int)
    requires MinInt <= n < 0
    ensures ParseInt(IntToString(n)) == Some(n)
  {
    var s := IntToString(n);
    var d := NatToDigits(-n);
    assert s == "-" + d;
    assert s[1..] == d;
    DigitsRoundTrip(-n);
  }

  lemma NonNegativeRoundTrip(n: int)
    requires 0 <= n <= MaxInt
    ensures ParseInt(IntToString(n)) == Some(n)
  {
    var s := IntToString(n);
    assert s == NatToDigits(n);
    assert IsDigit(s[0]);
    DigitsRoundTrip(n);
  }

  /** Distinct integers are written differently. */
  lemma IntToStringInjective(a: int, b: int)
    requires IntToString(a) == IntToString(b)
    ensures a == b
  {
    if a < 0 {
      assert IntToString(a)[1..] == NatToDigits(-a);
      assert IntToString(b)[1..] == NatToDigits(-b);
      DigitsRoundTrip(-a);
      DigitsRoundTrip(-b);
    } else {
      DigitsRoundTrip(a);
      DigitsRoundTrip(b);
    }
  }
}

=== FILE: outcomes.dfy ===
/** Optional values, the errors `SQLiteDataModel` throws, and results that carry either. */
module Outcomes {

  /** Swift's `Optional`. */
  datatype Option<+T> = None | Some(value: T)

  /** The cases of `SQLiteDataModel.Error` that the schema engine can throw, plus the two ways a
      call ends that are not cases of that enum: a Core Data error passed through from mapping
      inference, and a runtime trap on a force-unwrapped `nil`. */
  datatype Error =
    | UnableToLoadCoreDataModel(url: string)
    | InvalidModelVersion(found: Option<int>, expected: Option<int>)
    | SqliteError(code: int, message: Option<string>)
    | SqliteRequestTimeout
    | UnknownSqliteSchemaVersion
    | UnsupportedMigrationType
    | ZeroColumnTable(table: string)
    | MappingInferenceFailed
    | NilUnwrapped

  /** Which behaviour of the engine a member describes where the source departs from what it
      evidently intends: the code as it is written, or the code with those departures
      corrected. The departures are `createTable`'s guard and `currentVersion()` on an empty
      version table. */
  datatype Reading = AsWritten | Corrected

  /** A value, or the error a throwing Swift function would have thrown. */
  datatype Result<+T> = Ok(value: T) | Err(error: Error) {

    predicate IsFailure() {
      Err?
    }

    function PropagateFailure<U>(): Result<U>
      requires Err?
    {
      Err(error)
    }

    function Extract(): T
      requires Ok?
    {
      value
    }
  }
}

=== FILE: schema.dfy ===
/** The parts of a Core Data managed object model that the schema engine reads, as plain values
    in place of `NSManagedObjectModel`, `NSEntityDescription` and its property descriptions. */
module Schema {
  import opened Outcomes

  /** `NSAttributeType`: the scalar type of an attribute. */
  datatype AttrType =
    | UndefinedType
    | Integer16Type
    | Integer32Type
    | Integer64Type
    | DecimalType
    | DoubleType
    | FloatType
    | StringType
    | BooleanType
    | DateType
    | BinaryDataType
    | UUIDType
    | URIType
    | TransformableType
    | ObjectIDType

  /** An entity's property. `Attribute` is an `NSAttributeDescription`; `defaultValue` is the
      text that string interpolation produces for its default, if it has one. `Relationship`
      stands for every other kind of property description (relationships, fetched
      properties), of which the engine reads nothing. */
  datatype Property =
    | Attribute(name: string, attributeType: AttrType, isOptional: bool, defaultValue: Option<string>)
    | Relationship(name: string)

  /** An `NSEntityDescription`: its name and its properties in model order. */
  datatype Entity = Entity(name: string, properties: seq<Property>)

  /** A loaded model file: its entities in model order and the first of its version
      identifiers, when that identifier is a string. */
  datatype Model = Model(entities: seq<Entity>, versionIdentifier: Option<string>)

  predicate HasAttribute(ps: seq<Property>) {
    exists i :: 0 <= i < |ps| && ps[i].Attribute?
  }

  /** The attributes among `ps`, in order. */
  function Attributes(ps: seq<Property>): (r: seq<Property>)
    ensures forall i :: 0 <= i < |r| ==> r[i].Attribute? && r[i] in ps
    ensures forall i :: 0 <= i < |ps| && ps[i].Attribute? ==> ps[i] in r
    ensures |r| <= |ps|
    decreases |ps|
  {
    if |ps| == 0 then []
    else
      var init := Attributes(ps[..|ps| - 1]);
      var last := ps[|ps| - 1];
      if last.Attribute? then init + [last] else init
  }

  lemma AttributesEmpty(ps: seq<Property>)
    ensures |Attributes(ps)| == 0 <==> !HasAttribute(ps)
  {
    if HasAttribute(ps) {
      var i :| 0 <= i < |ps| && ps[i].Attribute?;
      assert ps[i] in Attributes(ps);
    }
  }

  /** `model.entitiesByName[name]`: the entity of that name, if the model has one. */
  function EntityNamed(entities: seq<Entity>, name: string): (r: Option<Entity>)
    ensures r.Some? ==> r.value in entities && r.value.name == name
    ensures r.None? ==> forall i :: 0 <= i < |entities| ==> entities[i].name != name
  {
    if |entities| == 0 then None
    else if entities[0].name == name then Some(entities[0])
    else EntityNamed(entities[1..], name)
  }
}

=== FILE: sql.dfy ===
/** The SQL statements the schema engine sends to SQLite, the exact text each one is sent as,
    and a reader for that text which shows that no two statements share a spelling. */
module Sql {
  import opened Outcomes
  import opened Numerals

  /** The engine's own table, where every successful create or migrate records a version. */
  const VersionTable: string := "schema_migrations"

  const VersionTableDdl: string :=
    "CREATE TABLE " + VersionTable + "(version INTEGER NOT NULL, timestamp NUMERIC NOT NULL DEFAULT CURRENT_TIMESTAMP)"

  const CreatePrefix: string := "CREATE TABLE \""
  const DropPrefix: string := "DROP TABLE \""
  const AlterPrefix: string := "ALTER TABLE \""
  const RenameInfix: string := " RENAME TO \""
  const InsertPrefix: string := "INSERT INTO " + VersionTable + "(version) VALUES("

  /** One statement: `CreateTable` carries the column list already spelt out. */
  datatype Statement =
    | CreateTable(table: string, columns: string)
    | DropTable(table: string)
    | RenameTable(table: string, newName: string)
    | CreateVersionTable
    | InsertVersion(version: int)

  /** The text handed to `sqlite3_exec` for a statement. Table names are double-quoted and
      embedded as they are, with no escaping. */
  function Render(s: Statement): string {
    match s
    case CreateTable(t, cols) => CreatePrefix + t + "\"(" + cols + ")"
    case DropTable(t) => DropPrefix + t + "\""
    case RenameTable(t, u) => AlterPrefix + t + "\"" + RenameInfix + u + "\""
    case CreateVersionTable => VersionTableDdl
    case InsertVersion(v) => InsertPrefix + IntToString(v) + ")"
  }

  /** The names and values a statement embeds can be read back from its text: table names
      without a double quote, and versions that fit in an `Int`. */
  predicate Readable(s: Statement) {
    match s
    case CreateTable(t, _) => '"' !in t
    case DropTable(t) => '"' !in t
    case RenameTable(t, u) => '"' !in t && '"' !in u
    case CreateVersionTable => true
    case InsertVersion(v) => InIntRange(v)
  }

  /** Splits `s` at its first double quote: the text before it and the text after it. */
  function SplitAtQuote(s: string): (r: Option<(string, string)>)
    ensures r.Some? ==> '"' !in r.value.0 && s == r.value.0 + "\"" + r.value.1
    ensures r.None? ==> '"' !in s
  {
    if |s| == 0 then None
    else if s[0] == '"' then Some(("", s[1..]))
    else
      match SplitAtQuote(s[1..])
      case None => None
      case Some((a, b)) => Some(([s[0]] + a, b))
  }

  lemma {:induction false} SplitAtQuoteOf(a: string, b: string)
    requires '"' !in a
    ensures SplitAtQuote(a + "\"" + b) == Some((a, b))
  {
    if |a| > 0 {
      assert (a + "\"" + b)[1..] == a[1..] + "\"" + b;
      SplitAtQuoteOf(a[1..], b);
      assert [a[0]] + a[1..] == a;
    } else {
      assert (a + "\"" + b)[1..] == b;
    }
  }

  /** Reads a statement back from its text. */
  function Parse(sql: string): Option<Statement> {
    if sql == VersionTableDdl then Some(CreateVersionTable)
    else if CreatePrefix <= sql then
      match SplitAtQuote(sql[|CreatePrefix|..])
      case None => None
      case Some((t, rest)) =>
        if 2 <= |rest| && rest[0] == '(' && rest[|rest| - 1] == ')'
        then Some(CreateTable(t, rest[1..|rest| - 1]))
        else None
    else if DropPrefix <= sql then
      match SplitAtQuote(sql[|DropPrefix|..])
      case None => None
      case Some((t, rest)) => if rest == "" then Some(DropTable(t)) else None
    else if AlterPrefix <= sql then ParseRename(sql[|AlterPrefix|..])
    else if InsertPrefix <= sql && |InsertPrefix| < |sql| && sql[|sql| - 1] == ')' then
      match ParseInt(sql[|InsertPrefix|..|sql| - 1])
      case None => None
      case Some(v) => Some(InsertVersion(v))
    else None
  }

  /** Reads the part of an `ALTER TABLE` statement after its prefix. */
  function ParseRename(sql: string): Option<Statement> {
    match SplitAtQuote(sql)
    case None => None
    case Some((t, rest)) =>
      if !(RenameInfix <= rest) then None
      else
        match SplitAtQuote(rest[|RenameInfix|..])
        case None => None
        case Some((u, tail)) => if tail == "" then Some(RenameTable(t, u)) else None
  }

  lemma ParseRenderCreate(t: string, cols: string)
    requires '"' !in t
    ensures Parse(Render(CreateTable(t, cols))) == Some(CreateTable(t, cols))
  {
    var sql := Render(CreateTable(t, cols));
    var rest := "(" + cols + ")";
    assert sql == CreatePrefix + (t + "\"" + rest);
    assert sql[13] == '"' && VersionTableDdl[13] == 's';
    assert sql[..|CreatePrefix|] == CreatePrefix;
    assert sql[|CreatePrefix|..] == t + "\"" + rest;
    SplitAtQuoteOf(t, rest);
    assert rest[1..|rest| - 1] == cols;
  }

  lemma ParseRenderDrop(t: string)
    requires '"' !in t
    ensures Parse(Render(DropTable(t))) == Some(DropTable(t))
  {
    var sql := Render(DropTable(t));
    assert sql == DropPrefix + (t + "\"" + "");
    assert sql[0] == 'D';
    assert sql != VersionTableDdl by { assert VersionTableDdl[0] == 'C'; }
    assert !(CreatePrefix <= sql) by { assert CreatePrefix[0] == 'C'; }
    assert sql[..|DropPrefix|] == DropPrefix;
    assert sql[|DropPrefix|..] == t + "\"" + "";
    SplitAtQuoteOf(t, "");
  }

  lemma ParseRenderRename(t: string, u: string)
    requires '"' !in t && '"' !in u
    ensures Parse(Render(RenameTable(t, u))) == Some(RenameTable(t, u))
  {
    var sql := Render(RenameTable(t, u));
    var after := t + "\"" + (RenameInfix + u + "\"");
    assert sql == AlterPrefix + after;
    assert sql[0] == 'A';
    assert sql != VersionTableDdl by { assert VersionTableDdl[0] == 'C'; }
    assert !(CreatePrefix <= sql) by { assert CreatePrefix[0] == 'C'; }
    assert !(DropPrefix <= sql) by { assert DropPrefix[0] == 'D'; }
    assert sql[..|AlterPrefix|] == AlterPrefix;
    assert sql[|AlterPrefix|..] == after;
    ParseRenameOf(t, u);
  }

  lemma ParseRenameOf(t: string, u: string)
    requires '"' !in t && '"' !in u
    ensures ParseRename(t + "\"" + (RenameInfix + u + "\"")) == Some(RenameTable(t, u))
  {
    var rest := RenameInfix + u + "\"";
    SplitAtQuoteOf(t, rest);
    assert rest[..|RenameInfix|] == RenameInfix;
    assert rest[|RenameInfix|..] == u + "\"" + "";
    SplitAtQuoteOf(u, "");
  }

  lemma ParseRenderInsert(v: int)
    requires InIntRange(v)
    ensures Parse(Render(InsertVersion(v))) == Some(InsertVersion(v))
  {
    var sql := Render(InsertVersion(v));
    var n := IntToString(v);
    assert sql == InsertPrefix + (n + ")");
    assert sql[0] == 'I';
    assert sql != VersionTableDdl by { assert VersionTableDdl[0] == 'C'; }
    assert !(CreatePrefix <= sql) by { assert CreatePrefix[0] == 'C'; }
    assert !(DropPrefix <= sql) by { assert DropPrefix[0] == 'D'; }
    assert !(AlterPrefix <= sql) by { assert AlterPrefix[0] == 'A'; }
    assert sql[..|InsertPrefix|] == InsertPrefix;
    assert sql[|InsertPrefix|..|sql| - 1] == n;
    ParseIntToString(v);
  }

  /** Reading a rendered statement gives the statement back. */
  lemma ParseRender(s: Statement)
    requires Readable(s)
    ensures Parse(Render(s)) == Some(s)
  {
    match s
    case CreateTable(t, cols) => ParseRenderCreate(t, cols);
    case DropTable(t) => ParseRenderDrop(t);
    case RenameTable(t, u) => ParseRenderRename(t, u);
    case CreateVersionTable =>
    case InsertVersion(v) => ParseRenderInsert(v);
  }

  /** Distinct readable statements are sent as distinct text, so the sequence of texts SQLite
      receives determines the sequence of statements. */
  lemma RenderInjective(a: Statement, b: Statement)
    requires Readable(a) && Readable(b)
    requires Render(a) == Render(b)
    ensures a == b
  {
    ParseRender(a);
    ParseRender(b);
  }
}

=== FILE: versions.dfy ===
/** The version store and the versioned model files: `currentVersion()` reads the version
    recorded last in `schema_migrations`, and `loadModel(_:)` finds the model file of a version
    and checks that the file declares the version asked for. */
module Versions {
  import opened Outcomes
  import opened Numerals
  import opened Schema
  import opened Sql
  import opened Database

  /** SQLite's generic error code, which a query on a missing table fails with. */
  const SqliteErrorCode: int := 1

  const NoVersionTable: Error := SqliteError(SqliteErrorCode, Some("no such table: schema_migrations"))

  /** `currentVersion()` as the source writes it. The query asks for the last row by rowid. With
      no version table the query fails. With an empty table SQLite never calls the row
      callback, so the dispatch group the request waits on is never left and the wait times
      out after five seconds: the call throws `sqLiteRequestTimeout`. A last row whose text is
      not an `Int` gives `unknownSQLiteSchemaVersion`. */
  function CurrentVersionAsWritten(db: Db): (r: Result<int>)
    ensures VersionTable !in db.tables ==> r == Err(NoVersionTable)
    ensures VersionTable in db.tables && |db.versionRows| == 0 ==> r == Err(SqliteRequestTimeout)
    ensures VersionTable in db.tables && |db.versionRows| > 0 ==> r == LastVersion(db.versionRows)
  {
    if VersionTable !in db.tables then Err(NoVersionTable)
    else if |db.versionRows| == 0 then Err(SqliteRequestTimeout)
    else LastVersion(db.versionRows)
  }

  /** The most recently appended row, read as an `Int`. */
  function LastVersion(rows: seq<string>): (r: Result<int>)
    requires |rows| > 0
    ensures r.Ok? <==> ParseInt(rows[|rows| - 1]).Some?
    ensures r.Ok? ==> ParseInt(rows[|rows| - 1]) == Some(r.value) && InIntRange(r.value)
    ensures r.Err? ==> r.error == UnknownSqliteSchemaVersion
  {
    match ParseInt(rows[|rows| - 1])
    case None => Err(UnknownSqliteSchemaVersion)
    case Some(v) => Ok(v)
  }

  /** `currentVersion()` as evidently intended: an empty version table, like an unreadable
      last row, gives `unknownSQLiteSchemaVersion`. */
  function CurrentVersion(db: Db): (r: Result<int>)
    ensures r.Ok? <==> VersionTable in db.tables && |db.versionRows| > 0 && ParseInt(db.versionRows[|db.versionRows| - 1]).Some?
    ensures r.Ok? ==> ParseInt(db.versionRows[|db.versionRows| - 1]) == Some(r.value) && InIntRange(r.value)
    ensures VersionTable !in db.tables ==> r == Err(NoVersionTable)
    ensures VersionTable in db.tables && r.Err? ==> r.error == UnknownSqliteSchemaVersion
  {
    if VersionTable !in db.tables then Err(NoVersionTable)
    else if |db.versionRows| == 0 then Err(UnknownSqliteSchemaVersion)
    else LastVersion(db.versionRows)
  }

  /** `currentVersion()` under `reading`. */
  function ReadVersion(reading: Reading, db: Db): (r: Result<int>)
    ensures r.Ok? <==> VersionTable in db.tables && |db.versionRows| > 0 && ParseInt(db.versionRows[|db.versionRows| - 1]).Some?
    ensures r.Ok? ==> ParseInt(db.versionRows[|db.versionRows| - 1]) == Some(r.value)
    ensures VersionTable in db.tables && |db.versionRows| == 0 ==>
              r == Err(if reading.AsWritten? then SqliteRequestTimeout else UnknownSqliteSchemaVersion)
  {
    match reading
    case AsWritten => CurrentVersionAsWritten(db)
    case Corrected => CurrentVersion(db)
  }

  /** Appending a version row makes that version current, whatever rows came before it. */
  lemma RecordedVersionIsCurrent(db: Db, v: int)
    requires VersionTable in db.tables && InIntRange(v)
    ensures CurrentVersion(Apply(db, InsertVersion(v))) == Ok(v)
    ensures CurrentVersionAsWritten(Apply(db, InsertVersion(v))) == Ok(v)
  {
    ParseIntToString(v);
  }

  /** The two readings differ only on an existing, empty version table, where the source
      times out instead of reporting an unknown version. */
  lemma CurrentVersionAgreement(db: Db)
    ensures CurrentVersionAsWritten(db) != CurrentVersion(db) <==>
              VersionTable in db.tables && |db.versionRows| == 0
    ensures VersionTable in db.tables && |db.versionRows| == 0 ==>
              CurrentVersionAsWritten(db) == Err(SqliteRequestTimeout) &&
              CurrentVersion(db) == Err(UnknownSqliteSchemaVersion)
  {
  }

  /** The file name, without extension, of version `v` of the model: the bare model name for
      version 1, otherwise the name, a space and the version number. */
  function VersionedName(modelName: string, v: int): (r: string)
    ensures v == 1 <==> r == modelName
    ensures modelName <= r
    ensures v != 1 ==> |r| > |modelName| && r[|modelName|] == ' '
    ensures v != 1 && InIntRange(v) ==> ParseInt(r[|modelName| + 1..]) == Some(v)
  {
    if v == 1 then modelName
    else
      var r := modelName + " " + IntToString(v);
      assert r[|modelName| + 1..] == IntToString(v);
      if InIntRange(v) then ParseIntToString(v); r else r
  }

  /** Distinct versions live in differently named files. */
  lemma VersionedNameInjective(modelName: string, v: int, w: int)
    requires VersionedName(modelName, v) == VersionedName(modelName, w)
    ensures v == w
  {
    if v != 1 && w != 1 {
      var a := VersionedName(modelName, v);
      assert a[|modelName| + 1..] == IntToString(v);
      assert VersionedName(modelName, w)[|modelName| + 1..] == IntToString(w);
      IntToStringInjective(v, w);
    }
  }

  /** The URL `loadModel` opens: the compiled model bundle itself for the latest version,
      or the versioned `.mom` file inside it. */
  function ModelFileURL(modelURL: string, modelName: string, version: Option<int>): (r: string)
    ensures version.None? <==> r == modelURL
  {
    match version
    case None => modelURL
    case Some(v) => modelURL + "/" + VersionedName(modelName, v) + ".mom"
  }

  /** Distinct version requests open distinct files. */
  lemma ModelFileURLInjective(modelURL: string, modelName: string, a: Option<int>, b: Option<int>)
    requires ModelFileURL(modelURL, modelName, a) == ModelFileURL(modelURL, modelName, b)
    ensures a == b
  {
    if a.Some? && b.Some? {
      var ua := ModelFileURL(modelURL, modelName, a);
      var ub := ModelFileURL(modelURL, modelName, b);
      var na := VersionedName(modelName, a.value);
      var nb := VersionedName(modelName, b.value);
      assert ua == (modelURL + "/") + na + ".mom";
      assert ub == (modelURL + "/") + nb + ".mom";
      assert |na| == |nb|;
      assert ua[|modelURL| + 1..|ua| - 4] == na;
      assert ub[|modelURL| + 1..|ub| - 4] == nb;
      VersionedNameInjective(modelName, a.value, b.value);
    }
  }

  /** The model files that load, by URL: what `NSManagedObjectModel(contentsOf:)` returns. */
  type ModelStore = map<string, Model>

  /** The model file at `url` loads as `model`, which declares version `v`. */
  predicate Loads(store: ModelStore, url: string, model: Model, v: int) {
    && url in store
    && store[url] == model
    && model.versionIdentifier.Some?
    && ParseInt(model.versionIdentifier.value) == Some(v)
  }

  predicate DeclaresVersion(model: Model) {
    model.versionIdentifier.Some? && ParseInt(model.versionIdentifier.value).Some?
  }

  function DeclaredVersion(model: Model): int
    requires DeclaresVersion(model)
  {
    ParseInt(model.versionIdentifier.value).value
  }

  /** `loadModel(_:)`: the model at the URL for `version` and the version it declares. A file
      that does not load, a version identifier that is missing or not an `Int`, and a declared
      version other than the one asked for are each an error. */
  function LoadModel(store: ModelStore, modelURL: string, modelName: string, version: Option<int>): (r: Result<(Model, int)>)
    ensures ModelFileURL(modelURL, modelName, version) !in store ==>
              r == Err(UnableToLoadCoreDataModel(ModelFileURL(modelURL, modelName, version)))
    ensures r.Ok? ==> Loads(store, ModelFileURL(modelURL, modelName, version), r.value.0, r.value.1)
    ensures ModelFileURL(modelURL, modelName, version) in store &&
            !DeclaresVersion(store[ModelFileURL(modelURL, modelName, version)]) ==>
              r == Err(InvalidModelVersion(None, version))
    ensures var url := ModelFileURL(modelURL, modelName, version);
            url in store && DeclaresVersion(store[url]) ==>
              r == if version.Some? && version.value != DeclaredVersion(store[url])
                   then Err(InvalidModelVersion(Some(DeclaredVersion(store[url])), version))
                   else Ok((store[url], DeclaredVersion(store[url])))
    ensures r.Ok? ==> InIntRange(r.value.1)
    ensures r.Ok? && version.Some? ==> r.value.1 == version.value
    ensures r.Err? && r.error.InvalidModelVersion? && r.error.found.Some? ==>
              version.Some? && r.error.found.value != version.value && r.error.expected == version
  {
    var url := ModelFileURL(modelURL, modelName, version);
    if url !in store then Err(UnableToLoadCoreDataModel(url))
    else
      var model := store[url];
      match model.versionIdentifier
      case None => Err(InvalidModelVersion(None, version))
      case Some(id) =>
        match ParseInt(id)
        case None => Err(InvalidModelVersion(None, version))
        case Some(found) =>
          if version.Some? && version.value != found then Err(InvalidModelVersion(Some(found), version))
          else Ok((model, found))
  }
}
